=== FILE: README.md ===
# Multi-source photo scraper — Dafny model

This project models the ingestion pipeline of `src/main.py` from scraper-multifuente-imagenes.
The pipeline runs once a day. It empties the `RECURSOS_DIARIOS` table and the image folder.
It then asks four photo sources for records, in a fixed order: the Bing image of the day,
Pexels searches, Unsplash searches and the NASA picture of the day. Each source's JSON
becomes a flat photo record. The sink then translates each record's title and description
into Spanish and downloads its image under a name built from the source, the date and the
record's position. It upserts one row per record into MySQL and reports how many it saved.

The model has one module per concern:

- `Wrappers`: the Option type. A JSON key is absent, a request failed, or a step raised.
- `Text`: the Python string operations the code uses. These are `str(i)` as decimal digits,
  `in` on strings, `s[:n]`, `','.join`, `x or y` and `str.title()`.
- `Attempts`: the shape every adapter shares. An adapter is one `try` around a loop that
  appends records. It returns the records built before the first exception.
  `Collected(steps)` is that prefix.
- `Records`: the four sources and the photo record.
- `Translation`: `translate_text`, with the translation service as an oracle.
- `Adapters`: the four `get_photos_from_*` functions. Each has a record builder, a
  specification function, and an imperative method with the source's loops, proved equal to
  the specification function.
- `AdapterLemmas`: what the adapters guarantee about the records they return.
- `Download`: the decision logic of `download_image`.
- `Sink`: `save_photos_to_db`. It holds the `Table` class with its transaction, the
  per-record `Process` function and the `SavePhotos` loop, which is proved equal to a fold
  (`Replay`) over the per-record outcomes.
- `SinkLemmas`: what the sink guarantees over a whole batch.
- `Pipeline`: `main`. It covers the pre-flight outcome, the loop over the four adapters and
  the single call of the sink.

Requests, the database's verdict on each INSERT, the translator and the clock are inputs.
They are functions or values passed in (`World`, `Services`).

Behaviour worth knowing, all of it modelled as the code does it against a default MySQL
setup (autocommit off, a transactional table):

- An adapter whose request or record raises returns the records it had already appended.
  It does not return an empty list.
- `download_image` accepts any content type that contains `image`. It does not require the
  type to start with it. When streaming fails after the file was opened, the partly written
  file stays on disk (`Download.PartialFileLeftBehind`).
- After a failed INSERT, the sink calls `connection.rollback()` on its single transaction.
  This discards every row the batch had upserted before. `processed_count` still counts
  those rows, so the logged total can exceed the rows committed
  (`SinkLemmas.CountOutlivesRollback`, `SinkLemmas.SavedRows`). Isolating each record, for
  example with a savepoint per record, would have kept the earlier rows.
- The NASA adapter evaluates `item['url']` even when `hdurl` is present. An image entry
  without `url` therefore ends the adapter.
- The fixed strings are the code's Spanish ones: "Fotografía de", "Paisaje" and "Astronomía".

## Model

| member | source | states |
|---|---|---|
| Translation.TranslateText | src/main.py:60-68 | Empty text and a failing translator give the text back unchanged; otherwise the result is the translator's answer; the result is either the text or what the translator returned |
| Translation.TranslateArg | src/main.py:61-62 | A value that is not a string is returned untouched without calling the translator; a string is translated as by TranslateText |
| Text.OrElse | src/main.py:96 | `value or fallback`: the value when present and non-empty, else the fallback; never empty when the fallback is not |
| Text.TitleCase | src/main.py:96 | `query.title()` upper-cases a leading lower-case ASCII letter, keeps every later character and the length, and leaves a word with any other first character unchanged |
| Text.Decimal | src/main.py:160 | `str(i)` is a non-empty string of decimal digits with no leading zero (it starts with '0' only for 0), one digit long exactly below 10 |
| Text.DecimalRoundTrip | src/main.py:160 | Reading the digits of `str(i)` back gives i |
| Text.DecimalInjective | src/main.py:160 | Different positions render as different digit strings |
| Text.Contains | src/main.py:136 | `t in s` holds exactly when t occurs as a contiguous substring of s |
| Text.Truncate | src/main.py:169 | `s[:200]` is a prefix of s of length min(\|s\|, 200) |
| Text.JoinIsEmpty | src/main.py:111 | A comma join is empty exactly when there are no parts or a single empty part |
| Attempts.Collected | src/main.py:89-99 | An adapter's result is the records of the steps before the first failing step, in order |
| Attempts.CollectedUnique | src/main.py:89-99 | Only one record list fits the steps of a run |
| Attempts.CollectedAppend | src/main.py:89-99 | Steps run after earlier steps contribute only if none of the earlier steps failed |
| Attempts.StopAt | src/main.py:89-99 | A loop that built every earlier step and then meets a failure or the end returns exactly the collected records |
| Adapters.BingRecord | src/main.py:79-81 | A Bing image yields a record iff it has a `url`; the title defaults to "", the description to the copyright or "", and the image URL is the Bing host plus the path |
| Adapters.FetchBing | src/main.py:71-84 | The loop over the images returns BingPhotos: the records before the first image without `url`, and nothing when the request fails |
| AdapterLemmas.BingPhotosShape | src/main.py:81 | Every Bing record has fuente Bing, autor "Bing", categoria "Paisaje", 1920x1080, the run date and a Bing image URL |
| AdapterLemmas.BingOneRecordPerImage | src/main.py:79-81 | When every image has a `url`, there is one record per image, in order, titled with the image title or "" |
| Adapters.PexelsRecord | src/main.py:95-96 | A photo yields a record iff url, src.original, photographer, width and height are present; the title is the alt text or "Fotografía de q"; the description is "Fotografía de q por" and the photographer; the author is the photographer; url, image URL, width and height are the photo's; the colour defaults to #000000 |
| Adapters.PexelsPageLoop | src/main.py:95-96 | The inner loop over one search's photos either builds every photo's record or stops with the adapter's final result |
| Adapters.FetchPexels | src/main.py:86-99 | The nested loops over the five queries and their photos return PexelsPhotos |
| AdapterLemmas.PexelsPhotosShape | src/main.py:88-96 | Every Pexels record has fuente Pexels, a non-empty title, and the category, tags and description prefix of one of the five queries |
| AdapterLemmas.PexelsCategories | src/main.py:88-96 | `query.title()` gives the Pexels queries the categories Parking, Garage, Cars, Urban and City |
| AdapterLemmas.PexelsFailedSearch | src/main.py:89-99 | When the k-th search fails, the result is exactly what the searches before it produced |
| Adapters.TagTitles | src/main.py:111 | The tag titles in order, or a failure exactly when some tag has no `title` |
| Adapters.UnsplashRecord | src/main.py:110-111 | A photo yields a record iff links.html, urls.full, user.name, every tag title, width and height are present; the title, description and tags fall back to the query-based texts when empty |
| Adapters.UnsplashPageLoop | src/main.py:110-111 | The inner loop over one search's photos either builds every record or stops with the adapter's final result |
| Adapters.FetchUnsplash | src/main.py:101-114 | The nested loops over the four queries return UnsplashPhotos |
| AdapterLemmas.UnsplashPhotosShape | src/main.py:103-111 | Every Unsplash record has fuente Unsplash, a non-empty title, description and tag list, and the category of one of the four queries |
| AdapterLemmas.UnsplashTagsFallback | src/main.py:111 | The tags fall back to the query exactly when the photo has no tags or one tag with an empty title |
| AdapterLemmas.UnsplashCategories | src/main.py:103-111 | `query.title()` gives the Unsplash queries the categories Nature, Landscape, Wildlife and Astronomy |
| AdapterLemmas.UnsplashFailedSearch | src/main.py:104-114 | When the k-th search fails, the result is exactly what the searches before it produced |
| Adapters.NasaRecord | src/main.py:124-125 | An image entry yields a record iff url, title and explanation are present; url and image_url are hdurl or else url; the title and description are the entry's title and explanation; the author defaults to "NASA" and the date to the run date |
| Adapters.FetchNasa | src/main.py:116-128 | The loop over the entries returns NasaPhotos, skipping entries that are not images |
| AdapterLemmas.NasaPhotosShape | src/main.py:125 | Every NASA record has fuente NASA, categoria "Astronomía", 2000x1500 and the same link as source and image URL |
| AdapterLemmas.ImageEntries | src/main.py:123-124 | The entries kept are exactly the image entries of the feed |
| AdapterLemmas.NasaStopsAtIncompleteImage | src/main.py:121-125 | For any feed, the result is the records of the image entries in feed order up to the first image entry lacking url, title or explanation, and nothing from that entry on |
| AdapterLemmas.NasaKeepsImagesInOrder | src/main.py:123-125 | When every image entry is complete, the result is the records of the image entries, in feed order |
| Download.DownloadImage | src/main.py:131-145 | The file is opened iff the request succeeds, the status is below 400 or at least 600, and the content type contains "image"; true is returned iff the file was opened and the body streamed |
| Download.NonImageNeverOpened | src/main.py:135-138 | A content type without "image" is refused before any file is opened, whatever the status |
| Download.FailuresNotSaved | src/main.py:133-145 | A failed request or an error status yields false |
| Download.ImageSaved | src/main.py:135-142 | A 2xx reply whose content type starts with "image" and whose body streams is saved |
| Download.PartialFileLeftBehind | src/main.py:139-145 | A body that fails to stream leaves an opened file and yields false |
| Sink.FileName | src/main.py:160-161 | The image file name starts with the source name and '_', ends with ".jpg", has the position's digits just before ".jpg", and is as long as its parts plus the separators |
| Sink.FileNameIndex | src/main.py:160-161 | The record position can be read back from its file name: the digits between the last '_' and ".jpg" |
| Sink.FileNamesDistinct | src/main.py:160-161 | Records at different positions never share a file name, across sources and dates |
| Sink.FileNamesBySource | src/main.py:160 | Records from different sources never share a file name |
| Sink.Process | src/main.py:155-170 | A record is skipped iff its download fails, stored iff it was downloaded and the database executes its INSERT, rejected iff it was downloaded and the INSERT fails; a stored row has the record's date, the translated title, the display title `titulo_es[:200]`, the translated description, the record's category, author, source name, tags, URL, size and colour, and the file name for its position |
| Sink.Upserted | src/main.py:168 | The upsert adds the row's key and leaves other keys alone; a new key gets the whole row; an existing key gets only the new description and image path |
| Sink.Step | src/main.py:170-175 | One record moves the loop state on: the count grows by one exactly for a stored row, a stored row's key joins the table, a rejected record resets the rows to those the batch started on, a skipped one leaves them alone |
| Sink.Replay | src/main.py:152-175 | The fold of Step over the outcomes in order, from the committed rows and a count of 0: the count never exceeds the number of records, and a batch in which every record was skipped leaves both unchanged |
| Sink.Outcomes | src/main.py:153-170 | One outcome per record, each the processing of the record at that position |
| Sink.Table.Begin | src/main.py:150 | A new connection works on the committed rows |
| Sink.Table.Truncate | src/main.py:190-191 | TRUNCATE and commit leave the table empty |
| Sink.Table.Upsert | src/main.py:168-170 | The statement changes the connection's rows as Upserted, not the committed ones |
| Sink.Table.Rollback | src/main.py:174 | The connection's rows go back to the committed ones |
| Sink.Table.Commit | src/main.py:176 | The committed rows become the connection's rows |
| Sink.SaveOne | src/main.py:155-175 | One turn of the loop moves the table and processed_count on by the record's outcome: nothing on a failed download, upsert and count on an executed INSERT, rollback to the committed rows on a failed one |
| Sink.SavePhotos | src/main.py:148-181 | Without a connection nothing changes and no count is reported; otherwise the count and the committed table are those of Replay over the batch's outcomes |
| SinkLemmas.ReplayCountsStored | src/main.py:152-171 | processed_count is the number of records whose INSERT executed |
| SinkLemmas.SavedCount | src/main.py:152-179 | The logged total is the number of positions whose image download succeeded and whose INSERT the database executed |
| SinkLemmas.ReplayCountMonotone | src/main.py:171 | The count never decreases and grows by at most one per record |
| SinkLemmas.SuffixCount | src/main.py:171 | The records from any position on count no more than the whole batch |
| SinkLemmas.SkippedChangesNothing | src/main.py:163-167 | A record whose download failed changes neither the table nor the count |
| SinkLemmas.RejectedRollsBack | src/main.py:172-175 | A failed INSERT puts the table back to the start of the batch and keeps the count |
| SinkLemmas.CountOutlivesRollback | src/main.py:170-176 | One stored record followed by one rejected record leaves an empty table with a count of 1 |
| SinkLemmas.ReplayAfterRollback | src/main.py:170-176 | The final table is what the records after the last rollback make of the starting rows |
| SinkLemmas.StoredPathsDistinct | src/main.py:160-164 | Two stored rows never point at the same image file |
| SinkLemmas.ReplayKeepsWellFormed | src/main.py:168-169 | Every outcome keeps every row under its own key with a display title exactly its title cut to 200 characters; the duplicate-key update never touches either |
| SinkLemmas.SavedWellFormed | src/main.py:168-169 | The sink keeps a well-formed table well formed: each row under its own key, with `titulo_display == titulo[:200]` |
| SinkLemmas.ReplayKeys | src/main.py:168-170 | Without a rollback, starting empty, the table's keys are exactly the stored rows' keys |
| SinkLemmas.ReplayRowsMatchCount | src/main.py:168-171 | Without a rollback and with distinct keys, starting empty, the table has one row per counted record |
| SinkLemmas.ReplayRows | src/main.py:168-176 | Starting empty, the table's keys are those stored after the last rollback; with distinct keys its size is their number and at most the count |
| SinkLemmas.SavedRows | src/main.py:168-176 | After a batch on the truncated table, the committed keys are those of the records stored after the last rollback, and with distinct keys there are no more rows than the logged count |
| Pipeline.FetchFrom | src/main.py:204-208 | Calling an adapter returns that source's specified output |
| Pipeline.FetchNext | src/main.py:205-213 | One loop turn appends the next adapter's output, when non-empty, to all_photos |
| Pipeline.FetchAll | src/main.py:203-215 | The loop calls the four adapters once each, in order, and builds Combined |
| Pipeline.Run | src/main.py:184-220 | A failed pre-flight calls no adapter and no sink; otherwise the adapters run in order; the sink runs once iff some record was fetched, and the table ends as the sink leaves it, or empty |
| Pipeline.CombinedInOrder | src/main.py:203-211 | all_photos is the Bing, Pexels, Unsplash and NASA outputs concatenated in that order |
| Pipeline.SourcePhotosFuente | src/main.py:204 | Every record an adapter returns carries that adapter's fuente |
| Pipeline.CombinedGroupedBySource | src/main.py:203-211 | In all_photos every Bing record precedes every Pexels record, and so on |

## Left out

- HTTP sessions, retries with back-off, timeouts and headers are left out. Every request is an oracle reply.
- Logging is left out. Log messages have no effect on results.
- Environment variables, API keys and database configuration are left out.
- Translation calls the service through an oracle. The fixed language pair and the 0.1 s pause are not modelled.
- `datetime.now()` is one `today` value for the whole run. The code reads the clock for each record.
- urllib's `quote` is an opaque function parameter.
- File system effects are abstract: writing, deleting files from the image folder, and creating it.
- Only the opened and saved flags of a download are modelled, not the bytes.
- Database connection failures are one flag per connection. A failing `commit()` or `close()` after the loop is not modelled.
- In the sink, only the INSERT can fail on its own. The other statements in its `try` cannot raise for well-formed records.
- JSON values of unexpected types are not modelled: null where a string is expected, or non-object items. A key is either present with a value of the right type or absent.
- The sink's `.get` defaults are not modelled. Every record an adapter builds has all its keys, so they cannot apply.
- main's `except` around each adapter call is not modelled. Every adapter already catches all exceptions, so it cannot fire.
- Text.TitleCase: matches `str.title()` only for words of lower-case ASCII letters; other words (capitals after the first letter, non-ASCII letters, several words) are not handled as Python does. All the fixed queries are such words.
- `connection.rollback()` is modelled as undoing the whole uncommitted transaction: the connection runs with autocommit off, mysql-connector's default, and the table is transactional. Neither the connection options nor the table's engine are in the code. `Sink.Table.Rollback`, `Sink.Step` and the rollback lemmas (`SinkLemmas.RejectedRollsBack`, `SinkLemmas.CountOutlivesRollback`, `SinkLemmas.ReplayAfterRollback`, `SinkLemmas.ReplayRows`, `SinkLemmas.SavedRows`) rest on this assumption. With autocommit on or a non-transactional table, a rollback would undo nothing and every executed upsert would stay.
- The table's unique key is assumed to be (fecha, titulo). The schema is not in the code, and `ON DUPLICATE KEY UPDATE` fires on any unique key of the table; `Sink.Upserted` and the lemmas about the table's keys rest on this assumption.
- Download.DownloadImage: `fileOpened` means the code went on to `open(filepath, 'wb')`; an `open` that itself raises and a stream that fails after opening are both `bodyWritten == false`, so the model does not say whether a (partial) file exists in that case.
- Download.DownloadImage: the status range that raises is 400 to 599, as in `raise_for_status`. Redirects are not modelled.

=== FILE: adapter_lemmas.dfy ===
/**
 * What the adapters promise about the records they return: every record carries its
 * adapter's `fuente` and constants, the documented fallbacks give every stock photo a
 * title, NASA keeps only image entries and keeps their order, and a failing request
 * ends an adapter with exactly what the earlier requests produced.
 */
module AdapterLemmas {
  import opened Wrappers
  import opened Text
  import opened Attempts
  import opened Records
  import opened Adapters

  // ---------------------------------------------------------------- Bing

  /** The constants every Bing record carries. */
  ghost predicate BingShape(r: PhotoRecord, today: string) {
    && r.fuente == Bing && r.autor == "Bing" && r.categoria == "Paisaje"
    && r.date == today && r.width == 1920 && r.height == 1080
    && BingHost <= r.imageUrl
  }

  lemma {:induction false} BingStepsShape(images: seq<BingImage>, quote: string -> string, today: string)
    ensures forall o :: o in BingSteps(images, quote, today) && o.Some? ==> BingShape(o.value, today)
  {
    if images != [] {
      BingStepsShape(images[1..], quote, today);
    }
  }

  /** Every record the Bing adapter returns has the Bing constants, whatever the feed. */
  lemma BingPhotosShape(response: Option<seq<BingImage>>, quote: string -> string, today: string)
    ensures forall r :: r in BingPhotos(response, quote, today) ==> BingShape(r, today)
  {
    if response.Some? {
      BingStepsShape(response.value, quote, today);
    }
    forall r | r in BingPhotos(response, quote, today) ensures BingShape(r, today) {
      CollectedFromSteps(BingAttempts(response, quote, today), r);
    }
  }

  lemma {:induction false} BingStepsIndexed(images: seq<BingImage>, quote: string -> string, today: string)
    ensures |BingSteps(images, quote, today)| == |images|
    ensures forall k :: 0 <= k < |images| ==> BingSteps(images, quote, today)[k] == BingRecord(images[k], quote, today)
  {
    if images != [] {
      BingStepsIndexed(images[1..], quote, today);
    }
  }

  /** When every image has a `url`, the adapter returns one record per image, in feed
      order, titled with the image's title or "" when it has none. */
  lemma BingOneRecordPerImage(images: seq<BingImage>, quote: string -> string, today: string)
    requires forall k :: 0 <= k < |images| ==> images[k].url.Some?
    ensures |BingPhotos(Some(images), quote, today)| == |images|
    ensures forall k :: 0 <= k < |images| ==>
              BingPhotos(Some(images), quote, today)[k].titulo == images[k].title.GetOr("")
  {
    BingStepsIndexed(images, quote, today);
    CollectedAll(BingSteps(images, quote, today));
  }

  // ---------------------------------------------------------------- Pexels

  /** What a Pexels record found for query q carries. */
  ghost predicate PexelsShape(r: PhotoRecord, q: string, today: string) {
    && r.fuente == Pexels && r.titulo != "" && r.categoria == TitleCase(q)
    && r.tags == q + ",fotografía" && PhotoOf(q) <= r.descripcion && r.date == today
  }

  lemma {:induction false} PexelsPageShape(q: string, photos: seq<PexelsPhoto>, today: string)
    ensures forall o :: o in PexelsPageSteps(q, photos, today) && o.Some? ==> PexelsShape(o.value, q, today)
  {
    if photos != [] {
      PexelsPageShape(q, photos[1..], today);
    }
  }

  lemma {:induction false} PexelsAttemptsShape(queries: seq<string>, search: string -> Option<seq<PexelsPhoto>>, today: string)
    ensures forall o :: o in PexelsAttempts(queries, search, today) && o.Some? ==>
              exists q :: q in queries && PexelsShape(o.value, q, today)
  {
    if queries != [] {
      var q := queries[0];
      if search(q).Some? {
        PexelsPageShape(q, search(q).value, today);
      }
      PexelsAttemptsShape(queries[1..], search, today);
      forall o | o in PexelsAttempts(queries, search, today) && o.Some?
        ensures exists q' :: q' in queries && PexelsShape(o.value, q', today)
      {
        if o in PexelsPage(q, search(q), today) {
          assert PexelsShape(o.value, q, today);
        } else {
          assert o in PexelsAttempts(queries[1..], search, today);
          var q' :| q' in queries[1..] && PexelsShape(o.value, q', today);
          assert q' in queries;
        }
      }
    }
  }

  /** Every Pexels record has fuente Pexels, a non-empty title (the alt text or the
      "Fotografía de" fallback) and the category and tags of one of the fixed queries. */
  lemma PexelsPhotosShape(search: string -> Option<seq<PexelsPhoto>>, today: string)
    ensures forall r :: r in PexelsPhotos(search, today) ==>
              exists q :: q in PexelsQueries && PexelsShape(r, q, today)
  {
    PexelsAttemptsShape(PexelsQueries, search, today);
    forall r | r in PexelsPhotos(search, today)
      ensures exists q :: q in PexelsQueries && PexelsShape(r, q, today)
    {
      CollectedFromSteps(PexelsAttempts(PexelsQueries, search, today), r);
    }
  }

  lemma {:induction false} PexelsAttemptsSplit(queries: seq<string>, k: nat, search: string -> Option<seq<PexelsPhoto>>, today: string)
    requires k <= |queries|
    ensures PexelsAttempts(queries, search, today)
         == PexelsAttempts(queries[..k], search, today) + PexelsAttempts(queries[k..], search, today)
  {
    if k == 0 {
      assert queries[..0] == [] && queries[0..] == queries;
    } else {
      assert queries[..k][0] == queries[0] && queries[..k][1..] == queries[1..][..k - 1];
      assert queries[k..] == queries[1..][k - 1..];
      PexelsAttemptsSplit(queries[1..], k - 1, search, today);
    }
  }

  /** When the search for the k-th query fails, the adapter returns exactly what the
      searches before it produced, and nothing from that query on. */
  lemma PexelsFailedSearch(search: string -> Option<seq<PexelsPhoto>>, today: string, k: nat)
    requires k < |PexelsQueries|
    requires search(PexelsQueries[k]).None?
    ensures PexelsPhotos(search, today) == Collected(PexelsAttempts(PexelsQueries[..k], search, today))
  {
    var qs := PexelsQueries;
    PexelsAttemptsSplit(qs, k, search, today);
    var before := PexelsAttempts(qs[..k], search, today);
    var after := PexelsAttempts(qs[k..], search, today);
    assert qs[k..][0] == qs[k];
    assert after[0].None?;
    CollectedAppend(before, after);
  }

  // ---------------------------------------------------------------- Unsplash

  /** What an Unsplash record found for query q carries. */
  ghost predicate UnsplashShape(r: PhotoRecord, q: string, today: string) {
    && r.fuente == Unsplash && r.titulo != "" && r.descripcion != "" && r.tags != ""
    && r.categoria == TitleCase(q) && r.date == today
  }

  lemma {:induction false} UnsplashPageShape(q: string, photos: seq<UnsplashPhoto>, today: string)
    requires q != ""
    ensures forall o :: o in UnsplashPageSteps(q, photos, today) && o.Some? ==> UnsplashShape(o.value, q, today)
  {
    if photos != [] {
      UnsplashPageShape(q, photos[1..], today);
    }
  }

  lemma {:induction false} UnsplashAttemptsShape(queries: seq<string>, search: string -> Option<seq<UnsplashPhoto>>, today: string)
    requires forall q :: q in queries ==> q != ""
    ensures forall o :: o in UnsplashAttempts(queries, search, today) && o.Some? ==>
              exists q :: q in queries && UnsplashShape(o.value, q, today)
  {
    if queries != [] {
      var q := queries[0];
      assert q in queries;
      assert forall q' :: q' in queries[1..] ==> q' in queries;
      if search(q).Some? {
        UnsplashPageShape(q, search(q).value, today);
      }
      UnsplashAttemptsShape(queries[1..], search, today);
      forall o | o in UnsplashAttempts(queries, search, today) && o.Some?
        ensures exists q' :: q' in queries && UnsplashShape(o.value, q', today)
      {
        if o in UnsplashPage(q, search(q), today) {
          assert UnsplashShape(o.value, q, today);
        } else {
          assert o in UnsplashAttempts(queries[1..], search, today);
          var q' :| q' in queries[1..] && UnsplashShape(o.value, q', today);
          assert q' in queries;
        }
      }
    }
  }

  /** Every Unsplash record has fuente Unsplash and, thanks to the fallbacks, a
      non-empty title, description and tag list. */
  lemma UnsplashPhotosShape(search: string -> Option<seq<UnsplashPhoto>>, today: string)
    ensures forall r :: r in UnsplashPhotos(search, today) ==>
              exists q :: q in UnsplashQueries && UnsplashShape(r, q, today)
  {
    UnsplashAttemptsShape(UnsplashQueries, search, today);
    forall r | r in UnsplashPhotos(search, today)
      ensures exists q :: q in UnsplashQueries && UnsplashShape(r, q, today)
    {
      CollectedFromSteps(UnsplashAttempts(UnsplashQueries, search, today), r);
    }
  }

  /** The tag list falls back to the query exactly when joining the tag titles gives
      nothing: no tags at all, or a single tag with an empty title. */
  lemma UnsplashTagsFallback(q: string, photo: UnsplashPhoto, today: string)
    requires UnsplashRecord(q, photo, today).Some?
    ensures UnsplashRecord(q, photo, today).value.tags ==
              if photo.tagTitles == [] || photo.tagTitles == [Some("")] then q
              else Join(",", TagTitles(photo.tagTitles).value)
  {
    var titles := TagTitles(photo.tagTitles).value;
    JoinIsEmpty(",", titles);
    assert titles == [] <==> photo.tagTitles == [];
    assert titles == [""] <==> photo.tagTitles == [Some("")];
  }

  lemma {:induction false} UnsplashAttemptsSplit(queries: seq<string>, k: nat, search: string -> Option<seq<UnsplashPhoto>>, today: string)
    requires k <= |queries|
    ensures UnsplashAttempts(queries, search, today)
         == UnsplashAttempts(queries[..k], search, today) + UnsplashAttempts(queries[k..], search, today)
  {
    if k == 0 {
      assert queries[..0] == [] && queries[0..] == queries;
    } else {
      assert queries[..k][0] == queries[0] && queries[..k][1..] == queries[1..][..k - 1];
      assert queries[k..] == queries[1..][k - 1..];
      UnsplashAttemptsSplit(queries[1..], k - 1, search, today);
    }
  }

  /** When the search for the k-th query fails, the adapter returns exactly what the
      searches before it produced, and nothing from that query on. */
  lemma UnsplashFailedSearch(search: string -> Option<seq<UnsplashPhoto>>, today: string, k: nat)
    requires k < |UnsplashQueries|
    requires search(UnsplashQueries[k]).None?
    ensures UnsplashPhotos(search, today) == Collected(UnsplashAttempts(UnsplashQueries[..k], search, today))
  {
    var qs := UnsplashQueries;
    UnsplashAttemptsSplit(qs, k, search, today);
    var before := UnsplashAttempts(qs[..k], search, today);
    var after := UnsplashAttempts(qs[k..], search, today);
    assert qs[k..][0] == qs[k];
    assert after[0].None?;
    CollectedAppend(before, after);
  }

  // ---------------------------------------------------------------- NASA

  /** The constants every NASA record carries. */
  ghost predicate NasaShape(r: PhotoRecord) {
    && r.fuente == Nasa && r.url == r.imageUrl && r.categoria == "Astronomía"
    && r.width == 2000 && r.height == 1500
  }

  lemma {:induction false} NasaStepsShape(items: seq<NasaItem>, today: string)
    ensures forall o :: o in NasaSteps(items, today) && o.Some? ==> NasaShape(o.value)
  {
    if items != [] {
      NasaStepsShape(items[1..], today);
    }
  }

  /** Every NASA record has fuente NASA and the same link as source and image URL. */
  lemma NasaPhotosShape(response: Option<seq<NasaItem>>, today: string)
    ensures forall r :: r in NasaPhotos(response, today) ==> NasaShape(r)
  {
    if response.Some? {
      NasaStepsShape(response.value, today);
    }
    forall r | r in NasaPhotos(response, today) ensures NasaShape(r) {
      CollectedFromSteps(NasaAttempts(response, today), r);
    }
  }

  /** The image entries of a feed, in feed order. */
  function ImageEntries(items: seq<NasaItem>): (r: seq<NasaItem>)
    ensures forall e :: e in r ==> e in items && IsImage(e)
    ensures forall e :: e in items && IsImage(e) ==> e in r
  {
    if items == [] then []
    else (if IsImage(items[0]) then [items[0]] else []) + ImageEntries(items[1..])
  }

  /** The records of the given (complete) entries, in order. */
  function RecordsOf(entries: seq<NasaItem>, today: string): (r: seq<PhotoRecord>)
    requires forall e :: e in entries ==> NasaRecord(e, today).Some?
    ensures |r| == |entries|
    ensures forall k :: 0 <= k < |entries| ==> Some(r[k]) == NasaRecord(entries[k], today)
  {
    if entries == [] then []
    else [NasaRecord(entries[0], today).value] + RecordsOf(entries[1..], today)
  }

  /** When every image entry has its required keys, the NASA adapter returns the records
      of exactly the image entries, in feed order: video entries are dropped. */
  lemma {:induction false} NasaKeepsImagesInOrder(items: seq<NasaItem>, today: string)
    requires forall e :: e in items && IsImage(e) ==> NasaRecord(e, today).Some?
    ensures NasaPhotos(Some(items), today) == RecordsOf(ImageEntries(items), today)
  {
    if items != [] {
      var head := if IsImage(items[0]) then [NasaRecord(items[0], today)] else [];
      assert NasaSteps(items, today) == head + NasaSteps(items[1..], today);
      NasaKeepsImagesInOrder(items[1..], today);
      CollectedAppend(head, NasaSteps(items[1..], today));
      if IsImage(items[0]) {
        assert Collected(head) == [NasaRecord(items[0], today).value];
        var entries := ImageEntries(items);
        assert entries == [items[0]] + ImageEntries(items[1..]);
        assert entries[1..] == ImageEntries(items[1..]);
      } else {
        assert Collected(head) == [];
      }
    }
  }

  /** The NASA adapter's steps are the image entries' records, one per image entry. */
  lemma {:induction false} NasaStepsOfImages(items: seq<NasaItem>, today: string)
    ensures |NasaSteps(items, today)| == |ImageEntries(items)|
    ensures forall k :: 0 <= k < |ImageEntries(items)| ==>
              NasaSteps(items, today)[k] == NasaRecord(ImageEntries(items)[k], today)
  {
    if items != [] {
      NasaStepsOfImages(items[1..], today);
      if IsImage(items[0]) {
        assert NasaSteps(items, today) == [NasaRecord(items[0], today)] + NasaSteps(items[1..], today);
        assert ImageEntries(items) == [items[0]] + ImageEntries(items[1..]);
      } else {
        assert NasaSteps(items, today) == NasaSteps(items[1..], today);
        assert ImageEntries(items) == ImageEntries(items[1..]);
      }
    }
  }

  /** Whatever the feed, the NASA adapter returns the records of the image entries, in
      feed order, up to the first image entry that lacks url, title or explanation, and
      nothing from that entry on. */
  lemma NasaStopsAtIncompleteImage(items: seq<NasaItem>, today: string)
    ensures var r := NasaPhotos(Some(items), today);
            var es := ImageEntries(items);
            && |r| <= |es|
            && (forall k :: 0 <= k < |r| ==> NasaRecord(es[k], today) == Some(r[k]))
            && (forall j :: 0 <= j < |es| && NasaRecord(es[j], today).None? ==> |r| <= j)
            && (|r| < |es| ==> NasaRecord(es[|r|], today).None?)
  {
    NasaStepsOfImages(items, today);
  }

  /** The categories `query.title()` gives the Pexels queries. */
  lemma PexelsCategories()
    ensures TitleCase(PexelsQueries[0]) == "Parking"
    ensures TitleCase(PexelsQueries[1]) == "Garage"
    ensures TitleCase(PexelsQueries[2]) == "Cars"
    ensures TitleCase(PexelsQueries[3]) == "Urban"
    ensures TitleCase(PexelsQueries[4]) == "City"
  {
    TitleCaseWord('p', "arking", "parking", "Parking");
    TitleCaseWord('g', "arage", "garage", "Garage");
    TitleCaseWord('c', "ars", "cars", "Cars");
    TitleCaseWord('u', "rban", "urban", "Urban");
    TitleCaseWord('c', "ity", "city", "City");
  }

  /** The categories `query.title()` gives the Unsplash queries. */
  lemma UnsplashCategories()
    ensures TitleCase(UnsplashQueries[0]) == "Nature"
    ensures TitleCase(UnsplashQueries[1]) == "Landscape"
    ensures TitleCase(UnsplashQueries[2]) == "Wildlife"
    ensures TitleCase(UnsplashQueries[3]) == "Astronomy"
  {
    TitleCaseWord('n', "ature", "nature", "Nature");
    TitleCaseWord('l', "andscape", "landscape", "Landscape");
    TitleCaseWord('w', "ildlife", "wildlife", "Wildlife");
    TitleCaseWord('a', "stronomy", "astronomy", "Astronomy");
  }
}

=== FILE: adapters.dfy ===
/**
 * The four source adapters (get_photos_from_bing / _pexels / _unsplash / _nasa).
 *
 * A JSON item is a datatype with one Option field per key the adapter reads: None when
 * the key is absent. Reading an absent key with `item[key]` raises KeyError; with
 * `item.get(key, default)` it yields the default. A response is None when the request,
 * raise_for_status or the JSON decoding raised, else the item list (an absent list key
 * reads as the empty list).
 *
 * Each adapter is specified by its steps (one per record it tries to build, None for
 * the step that raises) and returns Collected(steps): the records built before the
 * first failure.
 */
module Adapters {
  import opened Wrappers
  import opened Text
  import opened Attempts
  import opened Records

  /** Title used when a stock photo has no alt text, and the start of its description. */
  function PhotoOf(query: string): string {
    "Fotografía de " + query
  }

  // ---------------------------------------------------------------- Bing

  datatype BingImage = BingImage(title: Option<string>, url: Option<string>, copyright: Option<string>)

  const BingHost := "https://www.bing.com"

  /** The record appended for one Bing image; `quote` is urllib's percent-encoding. */
  function BingRecord(image: BingImage, quote: string -> string, today: string): (r: Option<PhotoRecord>)
    ensures r.Some? <==> image.url.Some?
    ensures r.Some? ==> r.value.titulo == image.title.GetOr("")
                        && r.value.descripcion == image.copyright.GetOr("")
                        && r.value.imageUrl == BingHost + image.url.value
  {
    if image.url.None? then None
    else
      var title := image.title.GetOr("");
      Some(PhotoRecord(BingHost + "/search?q=" + quote(title), BingHost + image.url.value, title,
                       image.copyright.GetOr(""), "Paisaje", "Bing", Bing,
                       "paisaje,naturaleza,fotografía del día", today, 1920, 1080, BlackPlaceholder))
  }

  function BingSteps(images: seq<BingImage>, quote: string -> string, today: string): seq<Option<PhotoRecord>> {
    if images == [] then [] else [BingRecord(images[0], quote, today)] + BingSteps(images[1..], quote, today)
  }

  function BingAttempts(response: Option<seq<BingImage>>, quote: string -> string, today: string): seq<Option<PhotoRecord>> {
    match response
    case None => [None]
    case Some(images) => BingSteps(images, quote, today)
  }

  /** What get_photos_from_bing returns. */
  function BingPhotos(response: Option<seq<BingImage>>, quote: string -> string, today: string): seq<PhotoRecord> {
    Collected(BingAttempts(response, quote, today))
  }

  /** get_photos_from_bing: one request, one record per image, stopping at the first
      image without a `url`. */
  method FetchBing(response: Option<seq<BingImage>>, quote: string -> string, today: string)
    returns (photos: seq<PhotoRecord>)
    ensures photos == BingPhotos(response, quote, today)
  {
    photos := [];
    ghost var all := BingAttempts(response, quote, today);
    ghost var done: seq<Option<PhotoRecord>> := [];
    if response.None? {
      StopAt(all, done, all, photos);
      return;
    }
    var images := response.value;
    var j := 0;
    while j < |images|
      invariant 0 <= j <= |images|
      invariant all == done + BingSteps(images[j..], quote, today)
      invariant AllBuilt(done, photos)
    {
      assert images[j..][1..] == images[j + 1..];
      var record := BingRecord(images[j], quote, today);
      if record.None? {
        StopAt(all, done, BingSteps(images[j..], quote, today), photos);
        return;
      }
      photos := photos + [record.value];
      done := done + [record];
      j := j + 1;
    }
    StopAt(all, done, [], photos);
  }

  // ---------------------------------------------------------------- Pexels

  datatype PexelsPhoto = PexelsPhoto(
    url: Option<string>,
    srcOriginal: Option<string>,
    alt: Option<string>,
    photographer: Option<string>,
    width: Option<int>,
    height: Option<int>,
    avgColor: Option<string>)

  const PexelsQueries := ["parking", "garage", "cars", "urban", "city"]

  /** The record appended for one Pexels photo found for `query`. */
  function PexelsRecord(query: string, photo: PexelsPhoto, today: string): (r: Option<PhotoRecord>)
    ensures r.Some? <==> photo.url.Some? && photo.srcOriginal.Some? && photo.photographer.Some?
                         && photo.width.Some? && photo.height.Some?
    ensures r.Some? && Truthy(photo.alt) ==> r.value.titulo == photo.alt.value
    ensures r.Some? && !Truthy(photo.alt) ==> r.value.titulo == PhotoOf(query)
    ensures r.Some? ==> r.value.colorDominante == photo.avgColor.GetOr(BlackPlaceholder)
    ensures r.Some? ==>
              && r.value.descripcion == PhotoOf(query) + " por " + photo.photographer.value
              && r.value.autor == photo.photographer.value
              && r.value.url == photo.url.value && r.value.imageUrl == photo.srcOriginal.value
              && r.value.width == photo.width.value && r.value.height == photo.height.value
  {
    if photo.url.None? || photo.srcOriginal.None? || photo.photographer.None?
       || photo.width.None? || photo.height.None?
    then None
    else
      var photographer := photo.photographer.value;
      Some(PhotoRecord(photo.url.value, photo.srcOriginal.value, OrElse(photo.alt, PhotoOf(query)),
                       PhotoOf(query) + " por " + photographer, TitleCase(query), photographer, Pexels,
                       query + ",fotografía", today, photo.width.value, photo.height.value,
                       photo.avgColor.GetOr(BlackPlaceholder)))
  }

  function PexelsPageSteps(query: string, photos: seq<PexelsPhoto>, today: string): seq<Option<PhotoRecord>> {
    if photos == [] then []
    else [PexelsRecord(query, photos[0], today)] + PexelsPageSteps(query, photos[1..], today)
  }

  function PexelsPage(query: string, response: Option<seq<PexelsPhoto>>, today: string): seq<Option<PhotoRecord>> {
    match response
    case None => [None]
    case Some(photos) => PexelsPageSteps(query, photos, today)
  }

  function PexelsAttempts(queries: seq<string>, search: string -> Option<seq<PexelsPhoto>>, today: string)
    : seq<Option<PhotoRecord>>
  {
    if queries == [] then []
    else PexelsPage(queries[0], search(queries[0]), today) + PexelsAttempts(queries[1..], search, today)
  }

  /** What get_photos_from_pexels returns; `search(q)` is the response for query q. */
  function PexelsPhotos(search: string -> Option<seq<PexelsPhoto>>, today: string): seq<PhotoRecord> {
    Collected(PexelsAttempts(PexelsQueries, search, today))
  }

  /** The inner loop of get_photos_from_pexels over the photos one search returned:
      `failed` is set when a photo lacks a required field, and the adapter's result is then
      what was built so far. */
  method PexelsPageLoop(query: string, items: seq<PexelsPhoto>, today: string, photos: seq<PhotoRecord>,
                       ghost all: seq<Option<PhotoRecord>>, ghost done: seq<Option<PhotoRecord>>,
                       ghost later: seq<Option<PhotoRecord>>)
    returns (photos': seq<PhotoRecord>, failed: bool, ghost done': seq<Option<PhotoRecord>>)
    requires all == done + (PexelsPageSteps(query, items, today) + later)
    requires AllBuilt(done, photos)
    ensures failed ==> photos' == Collected(all)
    ensures !failed ==> all == done' + later && AllBuilt(done', photos')
  {
    photos', failed, done' := photos, false, done;
    assert items[0..] == items;
    var j := 0;
    while j < |items|
      invariant 0 <= j <= |items|
      invariant all == done' + (PexelsPageSteps(query, items[j..], today) + later)
      invariant AllBuilt(done', photos')
    {
      assert items[j..][1..] == items[j + 1..];
      var record := PexelsRecord(query, items[j], today);
      assert PexelsPageSteps(query, items[j..], today) + later
          == [record] + (PexelsPageSteps(query, items[j + 1..], today) + later);
      if record.None? {
        StopAt(all, done', [record] + (PexelsPageSteps(query, items[j + 1..], today) + later), photos');
        failed := true;
        return;
      }
      Advance(all, done', record, PexelsPageSteps(query, items[j + 1..], today) + later, photos');
      photos' := photos' + [record.value];
      done' := done' + [record];
      j := j + 1;
    }
    assert items[j..] == [];
  }

  /** get_photos_from_pexels: one search per query, one record per photo; a failing
      request or photo ends the whole adapter, keeping earlier queries' records. */
  method FetchPexels(search: string -> Option<seq<PexelsPhoto>>, today: string)
    returns (photos: seq<PhotoRecord>)
    ensures photos == PexelsPhotos(search, today)
  {
    photos := [];
    ghost var all := PexelsAttempts(PexelsQueries, search, today);
    ghost var done: seq<Option<PhotoRecord>> := [];
    var queries := PexelsQueries;
    var qi := 0;
    while qi < |queries|
      invariant 0 <= qi <= |queries|
      invariant all == done + PexelsAttempts(queries[qi..], search, today)
      invariant AllBuilt(done, photos)
    {
      var query := queries[qi];
      assert queries[qi..][1..] == queries[qi + 1..];
      ghost var later := PexelsAttempts(queries[qi + 1..], search, today);
      var response := search(query);
      assert all == done + (PexelsPage(query, response, today) + later);
      if response.None? {
        StopAt(all, done, PexelsPage(query, response, today) + later, photos);
        return;
      }
      var failed;
      photos, failed, done := PexelsPageLoop(query, response.value, today, photos, all, done, later);
      if failed {
        return;
      }
      qi := qi + 1;
    }
    StopAt(all, done, [], photos);
  }

  // ---------------------------------------------------------------- Unsplash

  datatype UnsplashPhoto = UnsplashPhoto(
    htmlLink: Option<string>,
    fullUrl: Option<string>,
    altDescription: Option<string>,
    description: Option<string>,
    userName: Option<string>,
    tagTitles: seq<Option<string>>,
    width: Option<int>,
    height: Option<int>,
    color: Option<string>)

  const UnsplashQueries := ["nature", "landscape", "wildlife", "astronomy"]

  /** The titles of a photo's tags, or None when one tag has no `title` key. */
  function TagTitles(tags: seq<Option<string>>): (r: Option<seq<string>>)
    ensures r.Some? <==> forall k :: 0 <= k < |tags| ==> tags[k].Some?
    ensures r.Some? ==> |r.value| == |tags| && forall k :: 0 <= k < |tags| ==> tags[k] == Some(r.value[k])
  {
    if tags == [] then Some([])
    else if tags[0].None? then None
    else
      match TagTitles(tags[1..])
      case None => None
      case Some(rest) => Some([tags[0].value] + rest)
  }

  /** The record appended for one Unsplash photo found for `query`. */
  function UnsplashRecord(query: string, photo: UnsplashPhoto, today: string): (r: Option<PhotoRecord>)
    ensures r.Some? <==> photo.htmlLink.Some? && photo.fullUrl.Some? && photo.userName.Some?
                         && TagTitles(photo.tagTitles).Some? && photo.width.Some? && photo.height.Some?
    ensures r.Some? && Truthy(photo.altDescription) ==> r.value.titulo == photo.altDescription.value
    ensures r.Some? && !Truthy(photo.altDescription) ==> r.value.titulo == PhotoOf(query)
    ensures r.Some? && Truthy(photo.description) ==> r.value.descripcion == photo.description.value
    ensures r.Some? && !Truthy(photo.description) ==>
              r.value.descripcion == PhotoOf(query) + " por " + photo.userName.value
    ensures r.Some? ==> r.value.tags == OrElse(Some(Join(",", TagTitles(photo.tagTitles).value)), query)
  {
    if photo.htmlLink.None? || photo.fullUrl.None? || photo.userName.None?
       || TagTitles(photo.tagTitles).None? || photo.width.None? || photo.height.None?
    then None
    else
      var author := photo.userName.value;
      var tags := Join(",", TagTitles(photo.tagTitles).value);
      Some(PhotoRecord(photo.htmlLink.value, photo.fullUrl.value, OrElse(photo.altDescription, PhotoOf(query)),
                       OrElse(photo.description, PhotoOf(query) + " por " + author), TitleCase(query), author,
                       Unsplash, OrElse(Some(tags), query), today, photo.width.value, photo.height.value,
                       photo.color.GetOr(BlackPlaceholder)))
  }

  function UnsplashPageSteps(query: string, photos: seq<UnsplashPhoto>, today: string): seq<Option<PhotoRecord>> {
    if photos == [] then []
    else [UnsplashRecord(query, photos[0], today)] + UnsplashPageSteps(query, photos[1..], today)
  }

  function UnsplashPage(query: string, response: Option<seq<UnsplashPhoto>>, today: string): seq<Option<PhotoRecord>> {
    match response
    case None => [None]
    case Some(photos) => UnsplashPageSteps(query, photos, today)
  }

  function UnsplashAttempts(queries: seq<string>, search: string -> Option<seq<UnsplashPhoto>>, today: string)
    : seq<Option<PhotoRecord>>
  {
    if queries == [] then []
    else UnsplashPage(queries[0], search(queries[0]), today) + UnsplashAttempts(queries[1..], search, today)
  }

  /** What get_photos_from_unsplash returns; `search(q)` is the response for query q. */
  function UnsplashPhotos(search: string -> Option<seq<UnsplashPhoto>>, today: string): seq<PhotoRecord> {
    Collected(UnsplashAttempts(UnsplashQueries, search, today))
  }

  /** The inner loop of get_photos_from_unsplash over the photos one search returned:
      `failed` is set when a photo lacks a required field, and the adapter's result is then
      what was built so far. */
  method UnsplashPageLoop(query: string, items: seq<UnsplashPhoto>, today: string, photos: seq<PhotoRecord>,
                       ghost all: seq<Option<PhotoRecord>>, ghost done: seq<Option<PhotoRecord>>,
                       ghost later: seq<Option<PhotoRecord>>)
    returns (photos': seq<PhotoRecord>, failed: bool, ghost done': seq<Option<PhotoRecord>>)
    requires all == done + (UnsplashPageSteps(query, items, today) + later)
    requires AllBuilt(done, photos)
    ensures failed ==> photos' == Collected(all)
    ensures !failed ==> all == done' + later && AllBuilt(done', photos')
  {
    photos', failed, done' := photos, false, done;
    assert items[0..] == items;
    var j := 0;
    while j < |items|
      invariant 0 <= j <= |items|
      invariant all == done' + (UnsplashPageSteps(query, items[j..], today) + later)
      invariant AllBuilt(done', photos')
    {
      assert items[j..][1..] == items[j + 1..];
      var record := UnsplashRecord(query, items[j], today);
      assert UnsplashPageSteps(query, items[j..], today) + later
          == [record] + (UnsplashPageSteps(query, items[j + 1..], today) + later);
      if record.None? {
        StopAt(all, done', [record] + (UnsplashPageSteps(query, items[j + 1..], today) + later), photos');
        failed := true;
        return;
      }
      Advance(all, done', record, UnsplashPageSteps(query, items[j + 1..], today) + later, photos');
      photos' := photos' + [record.value];
      done' := done' + [record];
      j := j + 1;
    }
    assert items[j..] == [];
  }

  /** get_photos_from_unsplash: the same loop shape as the Pexels adapter. */
  method FetchUnsplash(search: string -> Option<seq<UnsplashPhoto>>, today: string)
    returns (photos: seq<PhotoRecord>)
    ensures photos == UnsplashPhotos(search, today)
  {
    photos := [];
    ghost var all := UnsplashAttempts(UnsplashQueries, search, today);
    ghost var done: seq<Option<PhotoRecord>> := [];
    var queries := UnsplashQueries;
    var qi := 0;
    while qi < |queries|
      invariant 0 <= qi <= |queries|
      invariant all == done + UnsplashAttempts(queries[qi..], search, today)
      invariant AllBuilt(done, photos)
    {
      var query := queries[qi];
      assert queries[qi..][1..] == queries[qi + 1..];
      ghost var later := UnsplashAttempts(queries[qi + 1..], search, today);
      var response := search(query);
      assert all == done + (UnsplashPage(query, response, today) + later);
      if response.None? {
        StopAt(all, done, UnsplashPage(query, response, today) + later, photos);
        return;
      }
      var failed;
      photos, failed, done := UnsplashPageLoop(query, response.value, today, photos, all, done, later);
      if failed {
        return;
      }
      qi := qi + 1;
    }
    StopAt(all, done, [], photos);
  }

  // ---------------------------------------------------------------- NASA

  datatype NasaItem = NasaItem(
    mediaType: Option<string>,
    url: Option<string>,
    hdurl: Option<string>,
    title: Option<string>,
    explanation: Option<string>,
    copyright: Option<string>,
    date: Option<string>)

  /** Only entries whose media type is "image" are turned into records. */
  predicate IsImage(item: NasaItem) {
    item.mediaType == Some("image")
  }

  /** The record appended for one image entry. `url` is read with item['url'] even when
      `hdurl` is present, so an entry without `url` raises either way. */
  function NasaRecord(item: NasaItem, today: string): (r: Option<PhotoRecord>)
    ensures r.Some? <==> item.url.Some? && item.title.Some? && item.explanation.Some?
    ensures r.Some? ==> r.value.url == r.value.imageUrl == item.hdurl.GetOr(item.url.value)
    ensures r.Some? ==> r.value.autor == item.copyright.GetOr("NASA") && r.value.date == item.date.GetOr(today)
    ensures r.Some? ==> r.value.titulo == item.title.value && r.value.descripcion == item.explanation.value
  {
    if item.url.None? || item.title.None? || item.explanation.None? then None
    else
      var link := item.hdurl.GetOr(item.url.value);
      Some(PhotoRecord(link, link, item.title.value, item.explanation.value, "Astronomía",
                       item.copyright.GetOr("NASA"), Nasa, "astronomía,espacio,ciencia,nasa",
                       item.date.GetOr(today), 2000, 1500, BlackPlaceholder))
  }

  function NasaSteps(items: seq<NasaItem>, today: string): seq<Option<PhotoRecord>> {
    if items == [] then []
    else (if IsImage(items[0]) then [NasaRecord(items[0], today)] else []) + NasaSteps(items[1..], today)
  }

  function NasaAttempts(response: Option<seq<NasaItem>>, today: string): seq<Option<PhotoRecord>> {
    match response
    case None => [None]
    case Some(items) => NasaSteps(items, today)
  }

  /** What get_photos_from_nasa returns. */
  function NasaPhotos(response: Option<seq<NasaItem>>, today: string): seq<PhotoRecord> {
    Collected(NasaAttempts(response, today))
  }

  /** get_photos_from_nasa: one request, skipping non-image entries. */
  method FetchNasa(response: Option<seq<NasaItem>>, today: string) returns (photos: seq<PhotoRecord>)
    ensures photos == NasaPhotos(response, today)
  {
    photos := [];
    ghost var all := NasaAttempts(response, today);
    ghost var done: seq<Option<PhotoRecord>> := [];
    if response.None? {
      StopAt(all, done, all, photos);
      return;
    }
    var items := response.value;
    assert items[0..] == items;
    var j := 0;
    while j < |items|
      invariant 0 <= j <= |items|
      invariant all == done + NasaSteps(items[j..], today)
      invariant AllBuilt(done, photos)
    {
      assert items[j..][1..] == items[j + 1..];
      var item := items[j];
      if IsImage(item) {
        var record := NasaRecord(item, today);
        assert NasaSteps(items[j..], today) == [record] + NasaSteps(items[j + 1..], today);
        if record.None? {
          StopAt(all, done, NasaSteps(items[j..], today), photos);
          return;
        }
        Advance(all, done, record, NasaSteps(items[j + 1..], today), photos);
        photos := photos + [record.value];
        done := done + [record];
      }
      j := j + 1;
    }
    assert items[j..] == [];
    StopAt(all, done, [], photos);
  }
}

=== FILE: attempts.dfy ===
/**
 * The failure discipline shared by the four source adapters: each builds its records
 * one step at a time inside a single try block, so the first step that raises ends the
 * loop and the adapter returns the records it has already appended.
 *
 * A run of such a loop is described by its steps, one Option per step: Some(record)
 * for a step that built a record, None for the step that raised.
 */
module Attempts {
  import opened Wrappers

  /** r is what the loop returns over the steps s: the records of every step before the
      first failing one, in order, and nothing from that step on. */
  ghost predicate CollectedBy<T>(s: seq<Option<T>>, r: seq<T>) {
    && |r| <= |s|
    && (forall i :: 0 <= i < |r| ==> s[i] == Some(r[i]))
    && (|r| < |s| ==> s[|r|].None?)
  }

  /** The records a fault-isolated loop over the steps s returns. */
  function Collected<T>(s: seq<Option<T>>): (r: seq<T>)
    ensures CollectedBy(s, r)
  {
    if s == [] || s[0].None? then [] else [s[0].value] + Collected(s[1..])
  }

  /** Only one sequence of records is collected from given steps. */
  lemma CollectedUnique<T>(s: seq<Option<T>>, r: seq<T>)
    requires CollectedBy(s, r)
    ensures r == Collected(s)
  {
    var c := Collected(s);
    assert |r| == |c|;
    forall i | 0 <= i < |r| ensures r[i] == c[i] {
      assert s[i] == Some(r[i]) && s[i] == Some(c[i]);
    }
  }

  /** Every step in done built the record at the same position of built. */
  ghost predicate AllBuilt<T>(done: seq<Option<T>>, built: seq<T>) {
    |built| == |done| && forall i :: 0 <= i < |done| ==> done[i] == Some(built[i])
  }

  /** One more successful step: the loop appends the record that step built. */
  lemma Advance<T>(all: seq<Option<T>>, done: seq<Option<T>>, step: Option<T>, rest: seq<Option<T>>, built: seq<T>)
    requires all == done + ([step] + rest)
    requires AllBuilt(done, built)
    requires step.Some?
    ensures all == (done + [step]) + rest
    ensures AllBuilt(done + [step], built + [step.value])
  {
  }

  /** A loop that has built every step of done, and either has no steps left or fails on
      the next one, returns exactly what it has built. */
  lemma StopAt<T>(all: seq<Option<T>>, done: seq<Option<T>>, rest: seq<Option<T>>, built: seq<T>)
    requires all == done + rest
    requires AllBuilt(done, built)
    requires rest == [] || rest[0].None?
    ensures built == Collected(all)
  {
    assert forall i :: 0 <= i < |done| ==> all[i] == done[i];
    CollectedUnique(all, built);
  }

  /** A record in the result was built by one of the steps. */
  lemma CollectedFromSteps<T>(s: seq<Option<T>>, x: T)
    requires x in Collected(s)
    ensures Some(x) in s
  {
    var r := Collected(s);
    var i :| 0 <= i < |r| && r[i] == x;
    assert s[i] == Some(x);
  }

  /** When no step fails, every step contributes its record. */
  lemma CollectedAll<T>(s: seq<Option<T>>)
    requires forall i :: 0 <= i < |s| ==> s[i].Some?
    ensures |Collected(s)| == |s|
    ensures forall i :: 0 <= i < |s| ==> Collected(s)[i] == s[i].value
  {
  }

  /** Running the steps a and then the steps b: b only runs when no step of a failed. */
  lemma CollectedAppend<T>(a: seq<Option<T>>, b: seq<Option<T>>)
    ensures Collected(a + b) == if |Collected(a)| == |a| then Collected(a) + Collected(b) else Collected(a)
  {
    var ca := Collected(a);
    if |ca| == |a| {
      var cb := Collected(b);
      var r := ca + cb;
      forall i | 0 <= i < |r| ensures (a + b)[i] == Some(r[i]) {
        if i < |a| {
          assert a[i] == Some(ca[i]);
        } else {
          assert b[i - |a|] == Some(cb[i - |a|]);
        }
      }
      if |r| < |a + b| {
        assert (a + b)[|r|] == b[|cb|];
      }
      CollectedUnique(a + b, r);
    } else {
      forall i | 0 <= i < |ca| ensures (a + b)[i] == Some(ca[i]) {
        assert a[i] == Some(ca[i]);
      }
      assert (a + b)[|ca|] == a[|ca|];
      CollectedUnique(a + b, ca);
    }
  }
}

=== FILE: download.dfy ===
/**
 * The decision part of download_image. The HTTP exchange is an abstract reply: either
 * the request raised (connection error, timeout) or it produced a status, an optional
 * content-type header and whether writing the body to the destination file completed.
 * `bodyWritten` is false both when `open(filepath, 'wb')` itself raises and when the
 * stream fails after the file was opened; the model does not tell the two apart.
 */
module Download {
  import opened Wrappers
  import opened Text

  datatype HttpReply =
    | Unreachable
    | Reply(status: int, contentType: Option<string>, bodyWritten: bool)

  /** What download_image did: whether it went on to open the destination file (the
      open itself may still raise, see `bodyWritten`), and what it returned. */
  datatype DownloadResult = DownloadResult(fileOpened: bool, saved: bool)

  /** requests' raise_for_status raises for client and server error statuses. */
  predicate RaisesForStatus(status: int) {
    400 <= status < 600
  }

  /** download_image(url, filepath) for the reply the request for `url` produced. */
  function DownloadImage(reply: HttpReply): (d: DownloadResult)
    ensures d.fileOpened <==>
              reply.Reply? && !RaisesForStatus(reply.status)
              && IsInfix("image", reply.contentType.GetOr(""))
    ensures d.saved <==> d.fileOpened && reply.bodyWritten
  {
    match reply
    case Unreachable => DownloadResult(false, false)
    case Reply(status, contentType, bodyWritten) =>
      if RaisesForStatus(status) then DownloadResult(false, false)
      else if !Contains(contentType.GetOr(""), "image") then DownloadResult(false, false)
      else DownloadResult(true, bodyWritten)
  }

  /** A reply whose content type does not mention "image" is refused before the
      destination file is opened, even with a success status. */
  lemma NonImageNeverOpened(status: int, contentType: string, bodyWritten: bool)
    requires !Contains(contentType, "image")
    ensures !DownloadImage(Reply(status, Some(contentType), bodyWritten)).fileOpened
    ensures !DownloadImage(Reply(status, Some(contentType), bodyWritten)).saved
  {
  }

  /** Error statuses and failed requests yield false whatever the content type. */
  lemma FailuresNotSaved(reply: HttpReply)
    requires reply.Unreachable? || RaisesForStatus(reply.status)
    ensures !DownloadImage(reply).saved
  {
  }

  /** A success status with an image content type saves the file when the body streams. */
  lemma ImageSaved(status: int, contentType: string)
    requires 200 <= status < 300
    requires OccursAt("image", contentType, 0)
    ensures DownloadImage(Reply(status, Some(contentType), true)).saved
  {
  }

  /** When streaming the body fails after the file was opened, download_image returns
      false and leaves the partly written file behind. */
  lemma PartialFileLeftBehind(status: int, contentType: string)
    requires !RaisesForStatus(status)
    requires OccursAt("image", contentType, 0)
    ensures DownloadImage(Reply(status, Some(contentType), false)) == DownloadResult(true, false)
  {
  }
}

=== FILE: pipeline.dfy ===
/**
 * The orchestrator (main): pre-flight clean-up, the four adapters in a fixed order, and
 * one call of the sink when anything was fetched.
 */
module Pipeline {
  import opened Wrappers
  import opened Records
  import opened Adapters
  import opened Sink
  import opened AdapterLemmas

  /** How the pre-flight step went: the database could not be reached or truncated (the
      table is untouched), the table was truncated but clearing the image directory
      failed, or both succeeded. */
  datatype Preflight = DatabaseFailed | ClearingFailed | Clean

  /** Everything the run depends on besides the table: the outcome of the pre-flight, the
      four feeds' responses, urllib's quote, the run date and the sink's services. */
  datatype World = World(
    preflight: Preflight,
    bing: Option<seq<BingImage>>,
    quote: string -> string,
    pexels: string -> Option<seq<PexelsPhoto>>,
    unsplash: string -> Option<seq<UnsplashPhoto>>,
    nasa: Option<seq<NasaItem>>,
    today: string,
    sinkConnects: bool,
    services: Services)

  /** The adapters in the order main runs them. */
  const SourceOrder := [Bing, Pexels, Unsplash, Nasa]

  /** What the adapter for a source returns. */
  function SourcePhotos(w: World, s: Source): seq<PhotoRecord> {
    match s
    case Bing => BingPhotos(w.bing, w.quote, w.today)
    case Pexels => PexelsPhotos(w.pexels, w.today)
    case Unsplash => UnsplashPhotos(w.unsplash, w.today)
    case Nasa => NasaPhotos(w.nasa, w.today)
  }

  /** all_photos after the first k adapters ran: each output appended in turn (appending
      an empty output changes nothing). */
  function Gathered(w: World, k: nat): seq<PhotoRecord>
    requires k <= |SourceOrder|
  {
    if k == 0 then [] else Gathered(w, k - 1) + SourcePhotos(w, SourceOrder[k - 1])
  }

  /** all_photos after the four adapters ran. */
  function Combined(w: World): seq<PhotoRecord> {
    Gathered(w, |SourceOrder|)
  }

  /** Calls the adapter for a source. */
  method FetchFrom(w: World, s: Source) returns (photos: seq<PhotoRecord>)
    ensures photos == SourcePhotos(w, s)
  {
    match s
    case Bing => photos := FetchBing(w.bing, w.quote, w.today);
    case Pexels => photos := FetchPexels(w.pexels, w.today);
    case Unsplash => photos := FetchUnsplash(w.unsplash, w.today);
    case Nasa => photos := FetchNasa(w.nasa, w.today);
  }

  /** One turn of main's loop over the adapters: call the k-th adapter and append a
      non-empty result to all_photos. */
  method FetchNext(w: World, k: int, all: seq<PhotoRecord>) returns (all': seq<PhotoRecord>)
    requires 0 <= k < |SourceOrder|
    requires all == Gathered(w, k)
    ensures all' == Gathered(w, k + 1)
  {
    var photos := FetchFrom(w, SourceOrder[k]);
    all' := all;
    if photos != [] {
      all' := all + photos;
    }
  }

  /** main's loop over the adapters: each is called once, in order. */
  method FetchAll(w: World) returns (fetched: seq<Source>, all: seq<PhotoRecord>)
    ensures fetched == SourceOrder
    ensures all == Combined(w)
  {
    fetched, all := [], [];
    var k := 0;
    while k < |SourceOrder|
      invariant 0 <= k <= |SourceOrder|
      invariant |fetched| == k && forall i :: 0 <= i < k ==> fetched[i] == SourceOrder[i]
      invariant all == Gathered(w, k)
    {
      all := FetchNext(w, k, all);
      fetched := fetched + [SourceOrder[k]];
      k := k + 1;
    }
  }

  /** main. `fetched` lists the adapters called, in order; `sinkCalls` counts the calls of
      save_photos_to_db and `saved` is the count it reports. */
  method Run(w: World, db: Table) returns (fetched: seq<Source>, sinkCalls: nat, saved: Option<nat>)
    modifies db
    ensures w.preflight != Clean ==> fetched == [] && sinkCalls == 0 && saved.None?
    ensures w.preflight == DatabaseFailed ==> db.rows == old(db.rows) && db.committed == old(db.committed)
    ensures w.preflight == ClearingFailed ==> db.rows == map[] && db.committed == map[]
    ensures w.preflight == Clean ==>
              && fetched == SourceOrder
              && sinkCalls == (if Combined(w) == [] then 0 else 1)
              && (Combined(w) == [] ==> saved.None? && db.committed == map[])
              && (Combined(w) != [] && w.sinkConnects ==>
                    saved == Some(Saved(Combined(w), w.services, map[]).count)
                    && db.committed == Saved(Combined(w), w.services, map[]).rows)
              && (Combined(w) != [] && !w.sinkConnects ==> saved.None? && db.committed == map[])
  {
    fetched, sinkCalls, saved := [], 0, None;
    match w.preflight {
      case DatabaseFailed =>
        return;
      case ClearingFailed =>
        db.Truncate();
        return;
      case Clean =>
        db.Truncate();
    }
    var all;
    fetched, all := FetchAll(w);
    if all != [] {
      saved := SavePhotos(all, w.services, w.sinkConnects, db);
      sinkCalls := sinkCalls + 1;
    }
  }

  /** all_photos is the Bing, Pexels, Unsplash and NASA outputs, in that order. */
  lemma CombinedInOrder(w: World)
    ensures Combined(w) == SourcePhotos(w, Bing) + SourcePhotos(w, Pexels)
                         + SourcePhotos(w, Unsplash) + SourcePhotos(w, Nasa)
  {
    assert Gathered(w, 1) == SourcePhotos(w, Bing);
    assert Gathered(w, 2) == Gathered(w, 1) + SourcePhotos(w, Pexels);
    assert Gathered(w, 3) == Gathered(w, 2) + SourcePhotos(w, Unsplash);
  }

  /** Every record of a source's output carries that source's fuente. */
  lemma SourcePhotosFuente(w: World, src: Source)
    ensures forall r :: r in SourcePhotos(w, src) ==> r.fuente == src
  {
    match src
    case Bing => BingPhotosShape(w.bing, w.quote, w.today);
    case Pexels => PexelsPhotosShape(w.pexels, w.today);
    case Unsplash => UnsplashPhotosShape(w.unsplash, w.today);
    case Nasa => NasaPhotosShape(w.nasa, w.today);
  }

  /** Records appear grouped by source, in the adapters' order. */
  ghost predicate Grouped(c: seq<PhotoRecord>) {
    forall i, j :: 0 <= i <= j < |c| ==> c[i].fuente.Rank() <= c[j].fuente.Rank()
  }

  lemma GroupedAppend(a: seq<PhotoRecord>, b: seq<PhotoRecord>, src: Source)
    requires Grouped(a)
    requires forall r :: r in a ==> r.fuente.Rank() < src.Rank()
    requires forall r :: r in b ==> r.fuente == src
    ensures Grouped(a + b)
  {
    var c := a + b;
    forall i, j | 0 <= i <= j < |c| ensures c[i].fuente.Rank() <= c[j].fuente.Rank() {
      if j < |a| {
        assert c[i] == a[i] && c[j] == a[j];
      } else if i < |a| {
        assert c[i] == a[i] && c[i] in a;
        assert c[j] == b[j - |a|] && c[j] in b;
      } else {
        assert c[i] == b[i - |a|] && c[i] in b;
        assert c[j] == b[j - |a|] && c[j] in b;
      }
    }
  }

  /** Four lists holding, in turn, Bing, Pexels, Unsplash and NASA records concatenate
      to a list grouped by source. */
  lemma GroupedFour(b: seq<PhotoRecord>, p: seq<PhotoRecord>, u: seq<PhotoRecord>, n: seq<PhotoRecord>)
    requires forall r :: r in b ==> r.fuente == Bing
    requires forall r :: r in p ==> r.fuente == Pexels
    requires forall r :: r in u ==> r.fuente == Unsplash
    requires forall r :: r in n ==> r.fuente == Nasa
    ensures Grouped(b + p + u + n)
  {
    GroupedAppend([], b, Bing);
    assert [] + b == b;
    GroupedAppend(b, p, Pexels);
    assert forall r :: r in b + p ==> r in b || r in p;
    GroupedAppend(b + p, u, Unsplash);
    assert forall r :: r in b + p + u ==> r in b + p || r in u;
    GroupedAppend(b + p + u, n, Nasa);
  }

  /** In all_photos every Bing record precedes every Pexels record, and so on. */
  lemma CombinedGroupedBySource(w: World)
    ensures forall i, j :: 0 <= i <= j < |Combined(w)| ==>
              Combined(w)[i].fuente.Rank() <= Combined(w)[j].fuente.Rank()
  {
    CombinedInOrder(w);
    SourcePhotosFuente(w, Bing);
    SourcePhotosFuente(w, Pexels);
    SourcePhotosFuente(w, Unsplash);
    SourcePhotosFuente(w, Nasa);
    GroupedFour(SourcePhotos(w, Bing), SourcePhotos(w, Pexels), SourcePhotos(w, Unsplash), SourcePhotos(w, Nasa));
  }
}

=== FILE: records.dfy ===
/** The one domain entity: the flat photo record every source adapter produces. */
module Records {

  /** The four adapters; a record's `fuente` is always one of them, set by the adapter. */
  datatype Source = Bing | Pexels | Unsplash | Nasa {

    /** The identifier stored in `fuente` and used in image file names. */
    function Name(): string {
      match this
      case Bing => "Bing"
      case Pexels => "Pexels"
      case Unsplash => "Unsplash"
      case Nasa => "NASA"
    }

    /** Position of the adapter in the order the pipeline runs them. */
    function Rank(): nat {
      match this
      case Bing => 0
      case Pexels => 1
      case Unsplash => 2
      case Nasa => 3
    }
  }

  /** A normalised photo: the dictionary an adapter appends, one field per key. */
  datatype PhotoRecord = PhotoRecord(
    url: string,
    imageUrl: string,
    titulo: string,
    descripcion: string,
    categoria: string,
    autor: string,
    fuente: Source,
    tags: string,
    date: string,
    width: int,
    height: int,
    colorDominante: string)

  /** The colour placeholder used when a source gives none. */
  const BlackPlaceholder := "#000000"
}

=== FILE: sink.dfy ===
/**
 * The persistence sink (save_photos_to_db). Per record, in input order: translate the
 * title and the description, name the image file after the source, the date and the
 * record's position, download the image (skip the record when that fails), then upsert
 * a row and count it.
 *
 * The table is a map from the natural key (date, title) to a row. The sink's statements
 * run in one transaction that is committed after the last record (autocommit off, a
 * transactional table); a failing INSERT is followed by a rollback, which discards every
 * row the batch had upserted before it.
 * The services the sink calls are oracles: the translation provider, the HTTP reply for
 * each image URL, and whether the database executes the INSERT statement for a row.
 */
module Sink {
  import opened Wrappers
  import opened Text
  import opened Records
  import opened Translation
  import opened Download

  /** The columns of RECURSOS_DIARIOS. */
  datatype Row = Row(
    fecha: string,
    titulo: string,
    tituloDisplay: string,
    descripcion: string,
    categoria: string,
    autor: string,
    fuente: string,
    tags: string,
    urlFuente: string,
    pathImagen: string,
    width: int,
    height: int,
    colorDominante: string)

  /** The natural key the upsert detects duplicates by, taken to be the table's only unique
      key (the schema of RECURSOS_DIARIOS is not part of this model). */
  datatype Key = Key(fecha: string, titulo: string)

  function KeyOf(row: Row): Key {
    Key(row.fecha, row.titulo)
  }

  datatype Services = Services(
    translator: string -> Option<string>,
    fetch: string -> HttpReply,
    executes: Row -> bool)

  /** Length of the display title column. */
  const DisplayLength := 200

  // ---------------------------------------------------------------- file names

  /** The image file name "{fuente}_{date}_{i}.jpg". */
  function FileName(fuente: Source, date: string, i: nat): (name: string)
    ensures |name| == |fuente.Name()| + |date| + |Decimal(i)| + 6
    ensures name[..|fuente.Name()| + 1] == fuente.Name() + "_"
    ensures name[|name| - 4..] == ".jpg"
    ensures name[|name| - 4 - |Decimal(i)|..|name| - 4] == Decimal(i)
  {
    fuente.Name() + "_" + date + "_" + Decimal(i) + ".jpg"
  }

  /** The characters after the last '_' of s (all of s when it has none). */
  function AfterLastUnderscore(s: string): string {
    if s == [] || s[|s| - 1] == '_' then [] else AfterLastUnderscore(s[..|s| - 1]) + [s[|s| - 1]]
  }

  lemma {:induction false} AfterUnderscoreDigits(x: string, d: string)
    requires forall k :: 0 <= k < |d| ==> IsDigit(d[k])
    ensures AfterLastUnderscore(x + "_" + d) == d
  {
    var s := x + "_" + d;
    if d != [] {
      assert s[..|s| - 1] == x + "_" + d[..|d| - 1];
      AfterUnderscoreDigits(x, d[..|d| - 1]);
    }
  }

  /** The position a file name was made for can be read back from it: the digits
      between its last '_' and ".jpg". */
  lemma FileNameIndex(fuente: Source, date: string, i: nat)
    ensures var name := FileName(fuente, date, i);
            && |name| >= 4
            && AfterLastUnderscore(name[..|name| - 4]) == Decimal(i)
            && ParseDecimal(AfterLastUnderscore(name[..|name| - 4])) == i
  {
    var name := FileName(fuente, date, i);
    var x := fuente.Name() + "_" + date;
    assert name[..|name| - 4] == x + "_" + Decimal(i);
    AfterUnderscoreDigits(x, Decimal(i));
    DecimalRoundTrip(i);
  }

  /** Two records at different positions never share a file name, whatever their
      sources and dates. */
  lemma FileNamesDistinct(f1: Source, d1: string, i: nat, f2: Source, d2: string, j: nat)
    requires i != j
    ensures FileName(f1, d1, i) != FileName(f2, d2, j)
  {
    FileNameIndex(f1, d1, i);
    FileNameIndex(f2, d2, j);
  }

  /** Records from different sources never share a file name: the four source names
      start with different letters. */
  lemma FileNamesBySource(f1: Source, d1: string, i: nat, f2: Source, d2: string, j: nat)
    requires f1 != f2
    ensures FileName(f1, d1, i) != FileName(f2, d2, j)
  {
    assert FileName(f1, d1, i)[0] == f1.Name()[0];
    assert FileName(f2, d2, j)[0] == f2.Name()[0];
  }

  // ---------------------------------------------------------------- one record

  /** What happened to one record: its download failed, its INSERT failed (and the
      transaction was rolled back), or its row was upserted. */
  datatype Outcome = Skipped | Rejected | Stored(row: Row)

  /** The row the sink writes for a record, given the translated texts and the file name. */
  function BuildRow(photo: PhotoRecord, titulo: string, descripcion: string, file: string): Row {
    Row(photo.date, titulo, Truncate(titulo, DisplayLength), descripcion, photo.categoria, photo.autor,
        photo.fuente.Name(), photo.tags, photo.url, file, photo.width, photo.height, photo.colorDominante)
  }

  /** The row the INSERT is attempted with for the record at position i. */
  function RowFor(photo: PhotoRecord, i: nat, svc: Services): Row {
    BuildRow(photo, TranslateText(photo.titulo, svc.translator), TranslateText(photo.descripcion, svc.translator),
             FileName(photo.fuente, photo.date, i))
  }

  /** The processing of the record at position i of the sink's input: skipped when the
      download fails, otherwise stored or rejected as the database executes the INSERT. */
  function Process(photo: PhotoRecord, i: nat, svc: Services): (o: Outcome)
    ensures o.Skipped? <==> !DownloadImage(svc.fetch(photo.imageUrl)).saved
    ensures o.Stored? <==> DownloadImage(svc.fetch(photo.imageUrl)).saved && svc.executes(RowFor(photo, i, svc))
    ensures o.Rejected? <==> DownloadImage(svc.fetch(photo.imageUrl)).saved && !svc.executes(RowFor(photo, i, svc))
    ensures o.Stored? ==>
              && o.row.fecha == photo.date
              && o.row.titulo == TranslateText(photo.titulo, svc.translator)
              && o.row.tituloDisplay == Truncate(o.row.titulo, DisplayLength)
              && o.row.descripcion == TranslateText(photo.descripcion, svc.translator)
              && o.row.categoria == photo.categoria && o.row.autor == photo.autor
              && o.row.fuente == photo.fuente.Name() && o.row.tags == photo.tags
              && o.row.urlFuente == photo.url
              && o.row.pathImagen == FileName(photo.fuente, photo.date, i)
              && o.row.width == photo.width && o.row.height == photo.height
              && o.row.colorDominante == photo.colorDominante
  {
    if !DownloadImage(svc.fetch(photo.imageUrl)).saved then Skipped
    else
      var row := RowFor(photo, i, svc);
      if svc.executes(row) then Stored(row) else Rejected
  }

  // ---------------------------------------------------------------- the table

  /** INSERT ... ON DUPLICATE KEY UPDATE descripcion, path_imagen. */
  function Upserted(rows: map<Key, Row>, row: Row): (r: map<Key, Row>)
    ensures r.Keys == rows.Keys + {KeyOf(row)}
    ensures forall k :: k in rows && k != KeyOf(row) ==> r[k] == rows[k]
    ensures KeyOf(row) !in rows ==> r[KeyOf(row)] == row
    ensures KeyOf(row) in rows ==>
              && r[KeyOf(row)].descripcion == row.descripcion
              && r[KeyOf(row)].pathImagen == row.pathImagen
              && SameExceptUpdated(r[KeyOf(row)], rows[KeyOf(row)])
  {
    var k := KeyOf(row);
    if k in rows then rows[k := rows[k].(descripcion := row.descripcion, pathImagen := row.pathImagen)]
    else rows[k := row]
  }

  /** Every column other than descripcion and path_imagen is equal. */
  ghost predicate SameExceptUpdated(a: Row, b: Row) {
    && a.fecha == b.fecha && a.titulo == b.titulo && a.tituloDisplay == b.tituloDisplay
    && a.categoria == b.categoria && a.autor == b.autor && a.fuente == b.fuente
    && a.tags == b.tags && a.urlFuente == b.urlFuente && a.width == b.width
    && a.height == b.height && a.colorDominante == b.colorDominante
  }

  /** The outcome of every record of the sink's input, position by position. */
  function Outcomes(photos: seq<PhotoRecord>, svc: Services): (os: seq<Outcome>)
    ensures |os| == |photos|
    ensures forall i :: 0 <= i < |photos| ==> os[i] == Process(photos[i], i, svc)
  {
    seq(|photos|, i requires 0 <= i < |photos| => Process(photos[i], i, svc))
  }

  /** The state of the sink's loop: the table and processed_count. */
  datatype SaveState = SaveState(rows: map<Key, Row>, count: nat)

  /** The state after one more outcome, in a transaction that started on the committed
      rows rows0: a stored row is upserted and counted, a rejected one rolls the table back
      to rows0 and keeps the count, a skipped one changes nothing. */
  function Step(before: SaveState, o: Outcome, rows0: map<Key, Row>): (after: SaveState)
    ensures after.count == before.count + (if o.Stored? then 1 else 0)
    ensures o.Stored? ==> after.rows.Keys == before.rows.Keys + {KeyOf(o.row)}
    ensures o.Rejected? ==> after.rows == rows0
    ensures o.Skipped? ==> after.rows == before.rows
  {
    match o
    case Stored(row) => SaveState(Upserted(before.rows, row), before.count + 1)
    case Rejected => SaveState(rows0, before.count)
    case Skipped => before
  }

  /** The state after the given outcomes, in order, starting from the committed rows rows0. */
  function Replay(outcomes: seq<Outcome>, rows0: map<Key, Row>): (r: SaveState)
    ensures r.count <= |outcomes|
    ensures (forall i :: 0 <= i < |outcomes| ==> outcomes[i].Skipped?) ==> r == SaveState(rows0, 0)
  {
    if outcomes == [] then SaveState(rows0, 0)
    else Step(Replay(outcomes[..|outcomes| - 1], rows0), outcomes[|outcomes| - 1], rows0)
  }

  /** The table and processed_count after the whole batch. */
  function Saved(photos: seq<PhotoRecord>, svc: Services, rows0: map<Key, Row>): SaveState {
    Replay(Outcomes(photos, svc), rows0)
  }

  /** The database table. `committed` is its durable content; `rows` is what the current
      connection sees, its own uncommitted statements included. */
  class Table {
    var rows: map<Key, Row>
    var committed: map<Key, Row>

    constructor (initial: map<Key, Row>)
      ensures rows == initial && committed == initial
    {
      rows, committed := initial, initial;
    }

    /** Opening a connection starts a transaction on the committed rows. */
    method Begin()
      modifies this
      ensures rows == old(committed) && committed == old(committed)
    {
      rows := committed;
    }

    /** TRUNCATE TABLE followed by commit. */
    method Truncate()
      modifies this
      ensures rows == map[] && committed == map[]
    {
      rows, committed := map[], map[];
    }

    /** The INSERT ... ON DUPLICATE KEY UPDATE statement, not yet committed. */
    method Upsert(row: Row)
      modifies this
      ensures rows == Upserted(old(rows), row) && committed == old(committed)
    {
      var k := KeyOf(row);
      if k in rows {
        rows := rows[k := rows[k].(descripcion := row.descripcion, pathImagen := row.pathImagen)];
      } else {
        rows := rows[k := row];
      }
    }

    /** connection.rollback(): every uncommitted statement is undone. */
    method Rollback()
      modifies this
      ensures rows == old(committed) && committed == old(committed)
    {
      rows := committed;
    }

    /** connection.commit(). */
    method Commit()
      modifies this
      ensures rows == old(rows) && committed == old(rows)
    {
      committed := rows;
    }
  }

  /** The body of save_photos_to_db's loop for the record at position i: the table and
      processed_count move on by that record's outcome. */
  method SaveOne(photo: PhotoRecord, i: nat, svc: Services, db: Table, ghost rows0: map<Key, Row>, count: nat)
    returns (count': nat)
    modifies db
    requires db.committed == rows0
    ensures db.committed == rows0
    ensures SaveState(db.rows, count') == Step(SaveState(old(db.rows), count), Process(photo, i, svc), rows0)
  {
    count' := count;
    var titulo := TranslateText(photo.titulo, svc.translator);
    var descripcion := TranslateText(photo.descripcion, svc.translator);
    var file := FileName(photo.fuente, photo.date, i);
    var download := DownloadImage(svc.fetch(photo.imageUrl));
    if !download.saved {
      return;
    }
    var row := BuildRow(photo, titulo, descripcion, file);
    if svc.executes(row) {
      db.Upsert(row);
      count' := count + 1;
    } else {
      db.Rollback();
    }
  }

  /** save_photos_to_db. Returns the processed count it logs, or None when the database
      connection could not be opened (nothing is written then). */
  method SavePhotos(photos: seq<PhotoRecord>, svc: Services, connects: bool, db: Table)
    returns (processed: Option<nat>)
    modifies db
    ensures !connects ==> processed.None? && db.rows == old(db.rows) && db.committed == old(db.committed)
    ensures connects ==>
              && processed == Some(Saved(photos, svc, old(db.committed)).count)
              && db.committed == Saved(photos, svc, old(db.committed)).rows
              && db.rows == db.committed
  {
    if !connects {
      return None;
    }
    db.Begin();
    ghost var rows0 := db.committed;
    ghost var outcomes := Outcomes(photos, svc);
    var count := 0;
    var i := 0;
    while i < |photos|
      invariant 0 <= i <= |photos|
      invariant db.committed == rows0
      invariant SaveState(db.rows, count) == Replay(outcomes[..i], rows0)
    {
      assert outcomes[..i + 1][..i] == outcomes[..i];
      count := SaveOne(photos[i], i, svc, db, rows0, count);
      i := i + 1;
    }
    assert outcomes[..i] == outcomes;
    db.Commit();
    processed := Some(count);
  }
}

=== FILE: sink_lemmas.dfy ===
/**
 * What save_photos_to_db does over a whole batch: processed_count counts exactly the
 * records whose INSERT executed and never goes down; skipped records leave the table
 * alone; a rejected record rolls the whole batch back, so the committed table holds only
 * the rows stored after the last rejection, while the count keeps the earlier ones;
 * stored rows have distinct image files; the table keeps its key and display-title
 * invariant.
 */
module SinkLemmas {
  import opened Text
  import opened Records
  import opened Download
  import opened Sink

  /** The positions whose row was upserted. */
  ghost function StoredIndices(os: seq<Outcome>): set<nat> {
    set i: nat | i < |os| && os[i].Stored?
  }

  /** processed_count is the number of records whose INSERT executed. */
  lemma {:induction false} ReplayCountsStored(os: seq<Outcome>, rows0: map<Key, Row>)
    ensures Replay(os, rows0).count == |StoredIndices(os)|
  {
    if os != [] {
      var init := os[..|os| - 1];
      ReplayCountsStored(init, rows0);
      var before := StoredIndices(init);
      if os[|os| - 1].Stored? {
        assert StoredIndices(os) == before + {|os| - 1};
        assert |os| - 1 !in before;
      } else {
        assert StoredIndices(os) == before;
      }
    }
  }

  /** The positions whose image was downloaded and whose INSERT the database executed. */
  ghost function AcceptedIndices(photos: seq<PhotoRecord>, svc: Services): set<nat> {
    set i: nat | i < |photos| && DownloadImage(svc.fetch(photos[i].imageUrl)).saved
                 && svc.executes(RowFor(photos[i], i, svc))
  }

  /** processed_count after the batch is the number of records that were downloaded and
      whose INSERT executed. */
  lemma SavedCount(photos: seq<PhotoRecord>, svc: Services, rows0: map<Key, Row>)
    ensures Saved(photos, svc, rows0).count == |AcceptedIndices(photos, svc)|
  {
    var os := Outcomes(photos, svc);
    ReplayCountsStored(os, rows0);
    assert StoredIndices(os) == AcceptedIndices(photos, svc);
  }

  /** processed_count never decreases along the batch, and grows by at most one per record. */
  lemma {:induction false} ReplayCountMonotone(os: seq<Outcome>, j: nat, rows0: map<Key, Row>)
    requires j <= |os|
    ensures Replay(os[..j], rows0).count <= Replay(os, rows0).count
    ensures Replay(os, rows0).count <= Replay(os[..j], rows0).count + (|os| - j)
  {
    if j < |os| {
      var init := os[..|os| - 1];
      assert init[..j] == os[..j];
      ReplayCountMonotone(init, j, rows0);
    } else {
      assert os[..j] == os;
    }
  }

  /** A record whose download failed changes neither the table nor the count. */
  lemma SkippedChangesNothing(os: seq<Outcome>, rows0: map<Key, Row>)
    requires os != [] && os[|os| - 1].Skipped?
    ensures Replay(os, rows0) == Replay(os[..|os| - 1], rows0)
  {
  }

  /** A record whose INSERT failed rolls the table back to where the batch started,
      undoing the rows stored before it, but the count keeps them. */
  lemma RejectedRollsBack(os: seq<Outcome>, rows0: map<Key, Row>)
    requires os != [] && os[|os| - 1].Rejected?
    ensures Replay(os, rows0).rows == rows0
    ensures Replay(os, rows0).count == Replay(os[..|os| - 1], rows0).count
  {
  }

  /** One stored record followed by one rejected record: the count says one row was
      saved, yet the table ends empty. */
  lemma CountOutlivesRollback(row: Row)
    ensures Replay([Stored(row), Rejected], map[]) == SaveState(map[], 1)
  {
    assert [Stored(row), Rejected][..1] == [Stored(row)];
    assert [Stored(row)][..0] == [];
    assert Replay([Stored(row)], map[]).count == 1;
  }

  /** The position just after the last rejected outcome (0 when there is none). */
  ghost function RollbackPoint(os: seq<Outcome>): (k: nat)
    ensures k <= |os|
    ensures forall i :: k <= i < |os| ==> !os[i].Rejected?
    ensures k > 0 ==> os[k - 1].Rejected?
  {
    if os == [] then 0
    else if os[|os| - 1].Rejected? then |os|
    else RollbackPoint(os[..|os| - 1])
  }

  /** The table after the batch is what the outcomes after the last rollback make of the
      rows the batch started on. */
  lemma {:induction false} ReplayAfterRollback(os: seq<Outcome>, rows0: map<Key, Row>)
    ensures Replay(os, rows0).rows == Replay(os[RollbackPoint(os)..], rows0).rows
  {
    if os == [] {
      assert os[0..] == os;
    } else if !os[|os| - 1].Rejected? {
      var init := os[..|os| - 1];
      var k := RollbackPoint(init);
      ReplayAfterRollback(init, rows0);
      var tail := os[k..];
      assert tail[..|tail| - 1] == init[k..];
      assert tail[|tail| - 1] == os[|os| - 1];
    }
  }

  /** Two stored records never point at the same image file. */
  lemma StoredPathsDistinct(photos: seq<PhotoRecord>, i: nat, j: nat, svc: Services)
    requires i < j < |photos|
    requires Process(photos[i], i, svc).Stored? && Process(photos[j], j, svc).Stored?
    ensures Process(photos[i], i, svc).row.pathImagen != Process(photos[j], j, svc).row.pathImagen
  {
    FileNamesDistinct(photos[i].fuente, photos[i].date, i, photos[j].fuente, photos[j].date, j);
  }

  /** A row's display title is its title cut to the first 200 characters. */
  ghost predicate DisplayOk(row: Row) {
    row.tituloDisplay == Truncate(row.titulo, DisplayLength)
  }

  /** Each row sits under its own natural key and has a proper display title. */
  ghost predicate WellFormed(rows: map<Key, Row>) {
    forall k :: k in rows ==> KeyOf(rows[k]) == k && DisplayOk(rows[k])
  }

  /** Upserting keeps the table well formed: an update on a duplicate key leaves the key
      columns and the display title as first inserted. */
  lemma {:induction false} ReplayKeepsWellFormed(os: seq<Outcome>, rows0: map<Key, Row>)
    requires WellFormed(rows0)
    requires forall i :: 0 <= i < |os| && os[i].Stored? ==> DisplayOk(os[i].row)
    ensures WellFormed(Replay(os, rows0).rows)
  {
    if os != [] {
      var init := os[..|os| - 1];
      ReplayKeepsWellFormed(init, rows0);
      var o := os[|os| - 1];
      if o.Stored? {
        var rows := Replay(init, rows0).rows;
        var after := Upserted(rows, o.row);
        forall key | key in after ensures KeyOf(after[key]) == key && DisplayOk(after[key]) {
          if key != KeyOf(o.row) {
            assert after[key] == rows[key];
          }
        }
      }
    }
  }

  /** The sink keeps a well-formed table well formed. */
  lemma SavedWellFormed(photos: seq<PhotoRecord>, svc: Services, rows0: map<Key, Row>)
    requires WellFormed(rows0)
    ensures WellFormed(Saved(photos, svc, rows0).rows)
  {
    ReplayKeepsWellFormed(Outcomes(photos, svc), rows0);
  }

  /** The natural keys of the stored rows. */
  ghost function StoredKeys(os: seq<Outcome>): set<Key> {
    set i: nat | i < |os| && os[i].Stored? :: KeyOf(os[i].row)
  }

  /** The stored rows have pairwise distinct natural keys. */
  ghost predicate DistinctStoredKeys(os: seq<Outcome>) {
    forall i: nat, j: nat :: i < j < |os| && os[i].Stored? && os[j].Stored? ==> KeyOf(os[i].row) != KeyOf(os[j].row)
  }

  /** Starting from the truncated table and without a rollback, the table holds exactly
      the keys of the stored rows. */
  lemma {:induction false} ReplayKeys(os: seq<Outcome>)
    requires forall i :: 0 <= i < |os| ==> !os[i].Rejected?
    ensures Replay(os, map[]).rows.Keys == StoredKeys(os)
  {
    if os != [] {
      var init := os[..|os| - 1];
      assert forall i :: 0 <= i < |init| ==> os[i] == init[i];
      ReplayKeys(init);
      var o := os[|os| - 1];
      if o.Stored? {
        assert StoredKeys(os) == StoredKeys(init) + {KeyOf(o.row)};
      } else {
        assert StoredKeys(os) == StoredKeys(init);
      }
    }
  }

  /** Starting from the truncated table and without a rollback, when the stored rows have
      distinct natural keys the table ends with one row per counted record. */
  lemma {:induction false} ReplayRowsMatchCount(os: seq<Outcome>)
    requires forall i :: 0 <= i < |os| ==> !os[i].Rejected?
    requires DistinctStoredKeys(os)
    ensures |Replay(os, map[]).rows| == Replay(os, map[]).count
  {
    if os != [] {
      var init := os[..|os| - 1];
      assert forall i :: 0 <= i < |init| ==> os[i] == init[i];
      assert DistinctStoredKeys(init);
      ReplayRowsMatchCount(init);
      var o := os[|os| - 1];
      if o.Stored? {
        var before := Replay(init, map[]);
        ReplayKeys(init);
        forall i: nat | i < |init| && init[i].Stored? ensures KeyOf(init[i].row) != KeyOf(o.row) {
          assert os[i] == init[i];
        }
        assert KeyOf(o.row) !in before.rows;
      }
    }
  }

  /** The stored rows of a suffix keep the suffix's distinct natural keys. */
  lemma DistinctStoredKeysSuffix(os: seq<Outcome>, k: nat)
    requires k <= |os|
    requires DistinctStoredKeys(os)
    ensures DistinctStoredKeys(os[k..])
  {
    var tail := os[k..];
    forall i: nat, j: nat | i < j < |tail| && tail[i].Stored? && tail[j].Stored?
      ensures KeyOf(tail[i].row) != KeyOf(tail[j].row)
    {
      assert tail[i] == os[k + i] && tail[j] == os[k + j];
    }
  }

  /** Starting from the truncated table, the rows left are exactly those stored after the
      last rollback: one per such record when their natural keys are distinct, and never
      more than the count. */
  lemma ReplayRows(os: seq<Outcome>)
    ensures var k := RollbackPoint(os);
            && Replay(os, map[]).rows.Keys == StoredKeys(os[k..])
            && (DistinctStoredKeys(os) ==>
                  |Replay(os, map[]).rows| == |StoredIndices(os[k..])| <= Replay(os, map[]).count)
  {
    var k := RollbackPoint(os);
    var tail := os[k..];
    var final := Replay(os, map[]);
    var fromTail := Replay(tail, map[]);
    ReplayAfterRollback(os, map[]);
    assert final.rows == fromTail.rows;
    ReplayKeys(tail);
    if DistinctStoredKeys(os) {
      DistinctStoredKeysSuffix(os, k);
      ReplayRowsMatchCount(tail);
      ReplayCountsStored(tail, map[]);
      SuffixCount(os, k, map[]);
      assert |final.rows| == |fromTail.rows| == fromTail.count == |StoredIndices(tail)|;
      assert fromTail.count <= final.count;
    }
  }

  /** After a batch on the truncated table, the committed rows are those of the records
      stored after the last rollback. */
  lemma SavedRows(photos: seq<PhotoRecord>, svc: Services)
    ensures var os := Outcomes(photos, svc);
            && Saved(photos, svc, map[]).rows.Keys == StoredKeys(os[RollbackPoint(os)..])
            && (DistinctStoredKeys(os) ==> |Saved(photos, svc, map[]).rows| <= Saved(photos, svc, map[]).count)
  {
    ReplayRows(Outcomes(photos, svc));
  }

  /** The records from position k on never store more rows than the whole batch. */
  lemma {:induction false} SuffixCount(os: seq<Outcome>, k: nat, rows0: map<Key, Row>)
    requires k <= |os|
    ensures Replay(os[k..], rows0).count <= Replay(os, rows0).count
  {
    if k == |os| {
      assert os[k..] == [];
    } else {
      var init := os[..|os| - 1];
      SuffixCount(init, k, rows0);
      var tail := os[k..];
      assert tail[..|tail| - 1] == init[k..];
      assert tail[|tail| - 1] == os[|os| - 1];
    }
  }
}

=== FILE: text.dfy ===
/**
 * String helpers the pipeline relies on: decimal rendering of indices (Python's
 * str(i)), substring search (Python's `in` on strings), slicing (s[:n]), joining
 * (','.join) and the title-casing of the fixed search terms (str.title()).
 */
module Text {
  import opened Wrappers

  /** Python truthiness of an optional string: present and non-empty. */
  predicate Truthy(o: Option<string>) {
    o.Some? && o.value != ""
  }

  /** Python's `value or fallback` on an optional string. */
  function OrElse(o: Option<string>, fallback: string): (r: string)
    ensures Truthy(o) ==> r == o.value
    ensures !Truthy(o) ==> r == fallback
    ensures fallback != "" ==> r != ""
  {
    if Truthy(o) then o.value else fallback
  }

  predicate IsDigit(c: char) {
    '0' <= c <= '9'
  }

  function DigitChar(d: nat): (c: char)
    requires d < 10
    ensures IsDigit(c)
  {
    ('0' as int + d) as char
  }

  /** The decimal digits of n, most significant first, without leading zeros. */
  function Decimal(n: nat): (s: string)
    ensures s != []
    ensures forall k :: 0 <= k < |s| ==> IsDigit(s[k])
    ensures s[0] == '0' <==> n == 0
    ensures |s| == 1 <==> n < 10
  {
    if n < 10 then [DigitChar(n)] else Decimal(n / 10) + [DigitChar(n % 10)]
  }

  /** The number a string of decimal digits denotes. */
  function ParseDecimal(s: string): nat
    requires forall k :: 0 <= k < |s| ==> IsDigit(s[k])
  {
    if s == [] then 0
    else 10 * ParseDecimal(s[..|s| - 1]) + DigitValue(s[|s| - 1])
  }

  function DigitValue(c: char): (d: nat)
    requires IsDigit(c)
    ensures d < 10
  {
    c as int - '0' as int
  }

  /** Reading back the digits of n gives n. */
  lemma {:induction false} DecimalRoundTrip(n: nat)
    ensures ParseDecimal(Decimal(n)) == n
  {
    var s := Decimal(n);
    if n >= 10 {
      assert s[..|s| - 1] == Decimal(n / 10);
      DecimalRoundTrip(n / 10);
    }
  }

  /** Distinct numbers have distinct decimal renderings. */
  lemma DecimalInjective(m: nat, n: nat)
    requires Decimal(m) == Decimal(n)
    ensures m == n
  {
    DecimalRoundTrip(m);
    DecimalRoundTrip(n);
  }

  /** t occurs somewhere in s as a contiguous substring. */
  ghost predicate IsInfix(t: string, s: string) {
    exists i :: OccursAt(t, s, i)
  }

  /** t occurs in s starting at position i. */
  ghost predicate OccursAt(t: string, s: string, i: int) {
    0 <= i && i + |t| <= |s| && s[i..i + |t|] == t
  }

  lemma InfixStep(t: string, s: string)
    requires |t| <= |s|
    ensures IsInfix(t, s) <==> s[..|t|] == t || (s != [] && IsInfix(t, s[1..]))
  {
    if IsInfix(t, s) && s[..|t|] != t {
      var i :| OccursAt(t, s, i);
      assert i > 0;
      assert s[1..][i - 1..i - 1 + |t|] == t;
      assert OccursAt(t, s[1..], i - 1);
    }
    if s != [] && IsInfix(t, s[1..]) {
      var j :| OccursAt(t, s[1..], j);
      assert s[j + 1..j + 1 + |t|] == t;
      assert OccursAt(t, s, j + 1);
    }
    if s[..|t|] == t {
      assert OccursAt(t, s, 0);
    }
  }

  /** Python's `t in s` for strings. */
  function Contains(s: string, t: string): (b: bool)
    ensures b <==> IsInfix(t, s)
    decreases |s|
  {
    if |s| < |t| then false
    else InfixStep(t, s); if s[..|t|] == t then true
    else Contains(s[1..], t)
  }

  /** Python's s[:n]: the first n characters of s, or all of s when it is shorter. */
  function Truncate(s: string, n: nat): (r: string)
    ensures r <= s
    ensures |r| <= n
    ensures |s| <= n ==> r == s
    ensures |s| >= n ==> |r| == n
  {
    if |s| <= n then s else s[..n]
  }

  /** Python's sep.join(parts). */
  function Join(sep: string, parts: seq<string>): string {
    if parts == [] then ""
    else if |parts| == 1 then parts[0]
    else parts[0] + sep + Join(sep, parts[1..])
  }

  /** A join with a non-empty separator is empty exactly when there is nothing to join
      but empty strings, and at most one of them. */
  lemma JoinIsEmpty(sep: string, parts: seq<string>)
    requires sep != ""
    ensures Join(sep, parts) == "" <==> parts == [] || parts == [""]
  {
    if |parts| > 1 {
      assert |parts[0] + sep + Join(sep, parts[1..])| >= |sep|;
    }
  }

  /** Python's str.title() on a word of lower-case ASCII letters: the first letter
      upper-cased, the rest kept. */
  function TitleCase(w: string): (r: string)
    ensures |r| == |w|
    ensures w != [] ==> r[1..] == w[1..]
    ensures w != [] && 'a' <= w[0] <= 'z' ==> r[0] == (w[0] as int - 32) as char && 'A' <= r[0] <= 'Z'
    ensures w != [] && !('a' <= w[0] <= 'z') ==> r == w
  {
    if w != [] && 'a' <= w[0] <= 'z' then [(w[0] as int - 32) as char] + w[1..] else w
  }

  /** A word made of a lower-case first letter and a tail is title-cased to the upper-case
      letter and the same tail. */
  lemma TitleCaseWord(c: char, tail: string, w: string, r: string)
    requires 'a' <= c <= 'z'
    requires w == [c] + tail
    requires r == [(c as int - 32) as char] + tail
    ensures TitleCase(w) == r
  {
    assert w[0] == c && w[1..] == tail;
  }
}

=== FILE: translation.dfy ===
/**
 * Best-effort translation (translate_text). The translation provider is an oracle:
 * `provider(text)` is Some(translation) when the call succeeds and None when it raises
 * (timeout, quota, malformed reply). The fixed target language is part of the oracle.
 */
module Translation {
  import opened Wrappers

  /** A value passed to translate_text: Python does not check its argument's type. */
  datatype Arg = Text(s: string) | Null | Number(n: int)

  /** translate_text on a string. */
  function TranslateText(text: string, provider: string -> Option<string>): (r: string)
    ensures text == "" ==> r == text
    ensures provider(text).None? ==> r == text
    ensures r == text || provider(text) == Some(r)
    ensures text != "" && provider(text).Some? ==> r == provider(text).value
    ensures r == "" ==> text == "" || provider(text) == Some("")
  {
    if text == "" then text
    else
      match provider(text)
      case Some(translated) => translated
      case None => text
  }

  /** translate_text on an arbitrary value: anything that is not a non-empty string
      comes back unchanged, without consulting the provider. */
  function TranslateArg(a: Arg, provider: string -> Option<string>): (r: Arg)
    ensures !a.Text? ==> r == a
    ensures a.Text? ==> r.Text? && r.s == TranslateText(a.s, provider)
  {
    match a
    case Text(s) => Text(TranslateText(s, provider))
    case _ => a
  }
}

=== FILE: wrappers.dfy ===
/** The Option type used for absent JSON keys, failed requests and failing steps. */
module Wrappers {

  /** Some(v) for a value that is present, None for one that is absent or failed. */
  datatype Option<+T> = None | Some(value: T) {

    /** The value if present, else the given default (Python's dict.get(key, default)). */
    function GetOr(default: T): T {
      match this
      case Some(v) => v
      case None => default
    }
  }
}
